=== FILE: README.md ===
# Pager layout manager: page window and offset state machine

This project models, in Dafny, the core of EhViewer's `PagerLayoutManager`.
That class lays out a gallery one page at a time and swipes between pages.
Its state is a single record (`PagerState.Pager`):

- the current page index;
- the pixel offset of the current page from its resting place;
- the reading mode (left to right, or right to left);
- three page slots (previous, current, next), each empty or holding a view bound to a page index;
- the two placeholders (progress and error) and the error text;
- the gesture bookkeeping;
- which of the three animations (smooth scroll, fling, smooth scale) is running.

Every operation is a pure function or method from that state, plus its
inputs, to a new state and an ordered log of host calls (`PagerState.Effect`).
The logged calls are the ones that change which views exist or show:

- obtaining, binding and adding a page view;
- removing, unbinding and releasing a page view;
- showing or hiding a placeholder;
- requesting a fill;
- pulling an edge glow.

The view width, the page gap and the adapter's size are parameters.

The modules follow the class's structure:

- `PagerState`: the state record, `resetParameters`, and the page accounting. The accounting is multisets of the pages held, obtained and released.
- `PageWindow`: `pagePrevious`, `pageNext`, `removeAllPages`, `removeProgress` and `removeErrorView`.
- `ModePolicy`: `getLeftPage`, `getRightPage`, `pageLeft` and `pageRight`.
- `OffsetEngine`: `scrollBetweenPages`, the offset clamp range, and a position measure. The measure shows the viewport moves by exactly the consumed delta.
- `SmoothScroll`: `startSmoothScroll` and the `SmoothScroller.onCalculate` loop. The loop has a termination measure.
- `Fill`: `onFill`. That is the placeholder choice, plus the index clamp, "ensure pages" and offset clamp of the content branch.
- `AnimationRules`: `cancelAllAnimations`, the double-tap scale search, and the `PageFling.startFling` clamp.
- `CurrentIndex`: `setCurrentIndex`, `onPageLeft` and `onPageRight`.
- `Gestures`: `onDown`, `isTapOrPressEnable`, the `onUp` settle, `onDoubleTapConfirmed` and `onFling`.
- `Drag`: `scrollInternal` and `overScrollEdge`. The image's own scroll is a function parameter.

Two behaviours of the code are kept as written:

1. **Releases without nulling.** `onFill` releases a view left in the previous slot at the first page, or in the next slot at the last page, but does not clear the field.
   - `Fill.FillKeepsStaleView` and `Fill.FillRepeatsStaleRelease` show the consequence: the window stays stale, the accounting law fails, and every later fill releases the same view again.
   - `Fill.ShrinkLeavesStaleView` gives a concrete trace: a gallery shrinking from three pages to two.
2. **Report misses the scaler.** `cancelAllAnimations` asks the smooth scroller twice and never asks the smooth scaler.
   - `AnimationRules.CancelReportsAllButScaler` states exactly when its report is wrong.
   - `Gestures.TapAfterDown` shows the effect on taps.

Three further facts about the code shape the model:

- **Starting an animation.** Starting an animation does not cancel the other two: `startSmoothScroll`, `startFling` and `startSmoothScaler` call no cancel. Only `onDown` (line 345), `setCurrentIndex` (lines 754, 763, 774) and the structural resets cancel animations.
- **Stale slots.** `onFill` releases the edge slots that became impossible without clearing them (see above).
- **Page left at the last page.** Right to left, "page left" at the last page of a gallery bounces on the left edge and keeps the index (lines 669-679). `CurrentIndex.RightToLeftLastPageBouncesLeft` states this.

The adapter's sentinels `GalleryProvider.STATE_WAIT` and `STATE_ERROR` come from a class that is not part of this model. They are taken as -1 and -2 (`PagerState.StateWait`, `PagerState.StateError`).

## Model

All source paths below are in `app/src/main/java/com/hippo/ehviewer/gallery/gl/PagerLayoutManager.java`.

| member | source | states |
|---|---|---|
| PagerState.ResetParameters | app/src/main/java/com/hippo/ehviewer/gallery/gl/PagerLayoutManager.java:98-104 | offset and gesture state return to rest; the index, slots, mode, placeholders and animations are untouched |
| PageWindow.DropAccounting | app/src/main/java/com/hippo/ehviewer/gallery/gl/PagerLayoutManager.java:163-167 | removing a page releases exactly the view the slot holds and obtains none |
| PageWindow.RemoveAllPages | app/src/main/java/com/hippo/ehviewer/gallery/gl/PagerLayoutManager.java:169-183 | all three slots end empty; exactly the views held are released and none obtained |
| PageWindow.RemoveProgress | app/src/main/java/com/hippo/ehviewer/gallery/gl/PagerLayoutManager.java:146-152 | the progress placeholder ends hidden, with a hide call only if it was shown; nothing else changes |
| PageWindow.RemoveErrorView | app/src/main/java/com/hippo/ehviewer/gallery/gl/PagerLayoutManager.java:154-161 | the error placeholder ends hidden; its text is forgotten only when it was shown; otherwise nothing changes |
| PageWindow.PagePrevious | app/src/main/java/com/hippo/ehviewer/gallery/gl/PagerLayoutManager.java:400-418 | no change at index 0 or below; otherwise the index drops by one, the slots shift towards next, and the new previous slot names index-1 when that is a page |
| PageWindow.PageNext | app/src/main/java/com/hippo/ehviewer/gallery/gl/PagerLayoutManager.java:420-440 | the mirror image of PagePrevious against the adapter's size |
| PageWindow.ShiftEffects | app/src/main/java/com/hippo/ehviewer/gallery/gl/PagerLayoutManager.java:400-440 | a shift that moves releases exactly the view that falls off the far side and obtains exactly the view of the new edge slot |
| PageWindow.WindowShiftAccounting | app/src/main/java/com/hippo/ehviewer/gallery/gl/PagerLayoutManager.java:400-440 | a shift neither leaks nor invents a view: held after + released = held before + obtained |
| PageWindow.ShiftKeepsCanonical | app/src/main/java/com/hippo/ehviewer/gallery/gl/PagerLayoutManager.java:400-440 | the canonical window stays canonical; a shift moves exactly when the neighbour exists |
| PageWindow.NextThenPrevious | app/src/main/java/com/hippo/ehviewer/gallery/gl/PagerLayoutManager.java:400-440 | from a canonical window short of the last page, next then previous restores index, offset and slots; the views released equal the views bound |
| PageWindow.PreviousThenNext | app/src/main/java/com/hippo/ehviewer/gallery/gl/PagerLayoutManager.java:400-440 | the mirror round trip from a canonical window past the first page |
| ModePolicy.LeftPage | app/src/main/java/com/hippo/ehviewer/gallery/gl/PagerLayoutManager.java:203-211 | the left slot is the previous slot left to right and the next slot right to left |
| ModePolicy.RightPage | app/src/main/java/com/hippo/ehviewer/gallery/gl/PagerLayoutManager.java:213-221 | the right slot is the next slot left to right and the previous slot right to left |
| ModePolicy.CanonicalSides | app/src/main/java/com/hippo/ehviewer/gallery/gl/PagerLayoutManager.java:204-222 | in a canonical window the left slot holds the page one step against the reading direction and the right slot one step along it |
| ModePolicy.PageLeft | app/src/main/java/com/hippo/ehviewer/gallery/gl/PagerLayoutManager.java:442-452 | either nothing changes, or the old left page becomes current, the old current is drawn on the right, and the index steps left |
| ModePolicy.PageRight | app/src/main/java/com/hippo/ehviewer/gallery/gl/PagerLayoutManager.java:454-464 | the mirror image of PageLeft |
| ModePolicy.PageTowardsExistingSide | app/src/main/java/com/hippo/ehviewer/gallery/gl/PagerLayoutManager.java:442-464 | in a canonical window page-left/right moves iff that side holds a page, lands on it, and keeps the window canonical |
| ModePolicy.ModesMirror | app/src/main/java/com/hippo/ehviewer/gallery/gl/PagerLayoutManager.java:204-222 | right to left, the left slot and page-left are left to right's right slot and page-right, and vice versa |
| OffsetEngine.ScrollBetweenPages | app/src/main/java/com/hippo/ehviewer/gallery/gl/PagerLayoutManager.java:466-513 | a delta short of the limit is absorbed into the offset with no remainder and no page change; otherwise the offset rests at 0, the remainder is dx + limit - offset, and the window shifts iff the neighbour exists |
| OffsetEngine.ScrollKeepsBounds | app/src/main/java/com/hippo/ehviewer/gallery/gl/PagerLayoutManager.java:466-513 | from inside the fill clamp range the offset stays inside it; whenever a remainder is returned the offset is inside it |
| OffsetEngine.ScrollRemainder | app/src/main/java/com/hippo/ehviewer/gallery/gl/PagerLayoutManager.java:466-513 | from inside the clamp range the remainder has dx's sign and is no larger; it equals dx iff the offset is 0 with no page that way; it is strictly smaller when that page exists |
| OffsetEngine.ConserveShiftLeft | app/src/main/java/com/hippo/ehviewer/gallery/gl/PagerLayoutManager.java:472-490 | a negative delta that shifts to the left page conserves viewport position plus remainder |
| OffsetEngine.ConserveShiftRight | app/src/main/java/com/hippo/ehviewer/gallery/gl/PagerLayoutManager.java:491-509 | a non-negative delta that shifts to the right page conserves viewport position plus remainder |
| OffsetEngine.ScrollConservesPosition | app/src/main/java/com/hippo/ehviewer/gallery/gl/PagerLayoutManager.java:466-513 | in a canonical window the viewport moves by exactly the consumed delta (delta = consumed + remainder) and the window stays canonical |
| SmoothScroll.StartSmoothScroll | app/src/main/java/com/hippo/ehviewer/gallery/gl/PagerLayoutManager.java:825-833 | the scroller holds the new distance from sample 0 and runs; the other animations and the window are untouched |
| SmoothScroll.OnCalculate | app/src/main/java/com/hippo/ehviewer/gallery/gl/PagerLayoutManager.java:836-852 | the loop terminates; the offset stays in range; the rest has the distance's sign and is no larger; a non-zero rest means resting at an edge; every page change requests a fill; position is conserved |
| Fill.EnsureSlot | app/src/main/java/com/hippo/ehviewer/gallery/gl/PagerLayoutManager.java:294-312 | a held view is kept (and released on the edge); an empty slot gets the page the index calls for |
| Fill.EnsurePages | app/src/main/java/com/hippo/ehviewer/gallery/gl/PagerLayoutManager.java:293-312 | held views stay; empty slots get the canonical page for the index; index and offset unchanged |
| Fill.EnsurePagesObtains | app/src/main/java/com/hippo/ehviewer/gallery/gl/PagerLayoutManager.java:293-309 | the views obtained are exactly those for the empty slots the index calls for |
| Fill.EnsurePagesReleases | app/src/main/java/com/hippo/ehviewer/gallery/gl/PagerLayoutManager.java:299-312 | the views released are exactly those on a side the gallery lacks |
| Fill.EnsurePagesHeld | app/src/main/java/com/hippo/ehviewer/gallery/gl/PagerLayoutManager.java:293-312 | the slots afterwards hold what they held plus what was obtained |
| Fill.EnsurePagesAccounting | app/src/main/java/com/hippo/ehviewer/gallery/gl/PagerLayoutManager.java:303-311 | the accounting law holds iff no stale-edge release happens |
| Fill.ErrorText | app/src/main/java/com/hippo/ehviewer/gallery/gl/PagerLayoutManager.java:249-254 | an empty gallery shows the empty text; otherwise the adapter's error, or the default text when there is none |
| Fill.ClampIndex | app/src/main/java/com/hippo/ehviewer/gallery/gl/PagerLayoutManager.java:279-291 | the index is clamped into [0, size-1]; a clamp drops every view; an index in range changes nothing |
| Fill.ClampOffset | app/src/main/java/com/hippo/ehviewer/gallery/gl/PagerLayoutManager.java:314-320 | the offset lands in [min, max] for the window's neighbours: kept when already there, min when below, max when above |
| Fill.FillWindow | app/src/main/java/com/hippo/ehviewer/gallery/gl/PagerLayoutManager.java:279-320 | the index is clamped; a current page always exists afterwards; the offset is clamped into the range of the rebuilt window: kept if inside, min below, max above |
| Fill.FillRebuildsClamped | app/src/main/java/com/hippo/ehviewer/gallery/gl/PagerLayoutManager.java:279-320 | an out-of-range index yields the canonical window; every old view is released and exactly the new ones obtained |
| Fill.FillInRange | app/src/main/java/com/hippo/ehviewer/gallery/gl/PagerLayoutManager.java:293-320 | for an index in range, filling is "ensure pages" plus the offset clamp |
| Fill.FillCompletes | app/src/main/java/com/hippo/ehviewer/gallery/gl/PagerLayoutManager.java:293-320 | a window whose views all sit where they belong is completed to the canonical window |
| Fill.FillCompletesAccounting | app/src/main/java/com/hippo/ehviewer/gallery/gl/PagerLayoutManager.java:293-320 | such a fill releases nothing and obtains exactly the missing views |
| Fill.FillFixesCanonical | app/src/main/java/com/hippo/ehviewer/gallery/gl/PagerLayoutManager.java:279-320 | a canonical window inside the offset range is a fixed point with no host call |
| Fill.FillIdempotent | app/src/main/java/com/hippo/ehviewer/gallery/gl/PagerLayoutManager.java:279-320 | filling twice equals filling once, whenever the first fill completes the window |
| Fill.FillKeepsStaleView | app/src/main/java/com/hippo/ehviewer/gallery/gl/PagerLayoutManager.java:299-312 | a stale edge view is released but stays in its slot; the accounting law fails |
| Fill.FillRepeatsStaleRelease | app/src/main/java/com/hippo/ehviewer/gallery/gl/PagerLayoutManager.java:299-312 | the next fill releases the same stale views again |
| Fill.ShrinkLeavesStaleView | app/src/main/java/com/hippo/ehviewer/gallery/gl/PagerLayoutManager.java:306-312 | a canonical window on page 1 of 3, filled once the gallery has 2 pages, releases page 2 yet keeps it as the next page |
| Fill.HidePlaceholders | app/src/main/java/com/hippo/ehviewer/gallery/gl/PagerLayoutManager.java:275-277 | both placeholders end hidden with no page view touched |
| Fill.FillPages | app/src/main/java/com/hippo/ehviewer/gallery/gl/PagerLayoutManager.java:274-320 | the placeholders are hidden and a current page exists; the window is the window-level fill |
| Fill.ShowLoading | app/src/main/java/com/hippo/ehviewer/gallery/gl/PagerLayoutManager.java:235-247 | progress is shown, the error view hidden, and no page held; ShowProgress is issued iff progress was hidden |
| Fill.EnsureErrorView | app/src/main/java/com/hippo/ehviewer/gallery/gl/PagerLayoutManager.java:260-270 | the error view is shown with the text; ShowError is issued iff it was hidden; the text is bound iff it differs from the one shown |
| Fill.ShowFailure | app/src/main/java/com/hippo/ehviewer/gallery/gl/PagerLayoutManager.java:248-273 | progress is hidden, the error view shows the text, no page is held, and the text is rebound only when it changed |
| Fill.Fill | app/src/main/java/com/hippo/ehviewer/gallery/gl/PagerLayoutManager.java:225-320 | wait shows progress; an error or size 0 shows the error view with the empty text, the error or the default text; in both placeholder cases the index and offset are kept, every held view is released and none obtained; otherwise the window and the host calls are exactly hiding the placeholders followed by the window-level fill (index clamp, ensure pages, offset clamp), and a current page exists |
| Fill.LoadingReleasesAll | app/src/main/java/com/hippo/ehviewer/gallery/gl/PagerLayoutManager.java:235-244 | the loading placeholder releases every held view and obtains none |
| Fill.FailureReleasesAll | app/src/main/java/com/hippo/ehviewer/gallery/gl/PagerLayoutManager.java:248-270 | the error placeholder releases every held view and obtains none |
| Fill.PlaceholdersSettle | app/src/main/java/com/hippo/ehviewer/gallery/gl/PagerLayoutManager.java:235-270 | showing the same placeholder again changes nothing and issues no host call |
| Fill.FillPagesSettles | app/src/main/java/com/hippo/ehviewer/gallery/gl/PagerLayoutManager.java:274-320 | on the pager, a second content fill after one that completes the window issues no host call |
| AnimationRules.CancelAllAnimations | app/src/main/java/com/hippo/ehviewer/gallery/gl/PagerLayoutManager.java:106-114 | every animation ends stopped; a "running" report implies one was running |
| AnimationRules.CancelReportsAllButScaler | app/src/main/java/com/hippo/ehviewer/gallery/gl/PagerLayoutManager.java:106-114 | the report is right iff the smooth scaler is not the only animation running |
| AnimationRules.CancelIdempotent | app/src/main/java/com/hippo/ehviewer/gallery/gl/PagerLayoutManager.java:106-114 | a second cancel finds nothing running |
| AnimationRules.FirstAbove | app/src/main/java/com/hippo/ehviewer/gallery/gl/PagerLayoutManager.java:384-390 | finds the first level strictly above the scale, with every earlier level at or below it; none iff all are at or below |
| AnimationRules.NextScale | app/src/main/java/com/hippo/ehviewer/gallery/gl/PagerLayoutManager.java:379-390 | the search loop returns the first level above the scale, or the first level when none is above |
| AnimationRules.FirstAboveIsFirst | app/src/main/java/com/hippo/ehviewer/gallery/gl/PagerLayoutManager.java:384-390 | the first position above the scale is the one found |
| AnimationRules.FirstAboveNone | app/src/main/java/com/hippo/ehviewer/gallery/gl/PagerLayoutManager.java:384-390 | no position is found when all levels are at or below the scale |
| AnimationRules.DoubleTapCycles | app/src/main/java/com/hippo/ehviewer/gallery/gl/PagerLayoutManager.java:379-390 | with strictly increasing levels, double taps go from each level to the next, and from the last back to the first |
| AnimationRules.ClampAxis | app/src/main/java/com/hippo/ehviewer/gallery/gl/PagerLayoutManager.java:880-895 | the distance is clamped into the image's range; an inverted range yields its high end; a distance in range keeps its duration |
| AnimationRules.ClampAxisIdempotent | app/src/main/java/com/hippo/ehviewer/gallery/gl/PagerLayoutManager.java:880-895 | clamping a clamped axis again changes nothing |
| AnimationRules.PlanFling | app/src/main/java/com/hippo/ehviewer/gallery/gl/PagerLayoutManager.java:880-901 | no fling iff both clamped distances are 0; otherwise it runs the clamped distances for the longer duration |
| AnimationRules.FlingStaysInRange | app/src/main/java/com/hippo/ehviewer/gallery/gl/PagerLayoutManager.java:880-899 | a fling never exceeds the image's range; it starts iff some clamped distance is non-zero |
| AnimationRules.StuckImageNeverFlings | app/src/main/java/com/hippo/ehviewer/gallery/gl/PagerLayoutManager.java:880-899 | an image with no scroll range on either axis never starts a fling |
| CurrentIndex.KnownSize | app/src/main/java/com/hippo/ehviewer/gallery/gl/PagerLayoutManager.java:742-746 | the bound checked is the adapter's size when positive, `Integer.MAX_VALUE` when the size is not yet known; it is always at least 1 |
| CurrentIndex.Restart | app/src/main/java/com/hippo/ehviewer/gallery/gl/PagerLayoutManager.java:752-756 | animations stopped, offset and gesture at rest, slots and placeholders untouched |
| CurrentIndex.Jump | app/src/main/java/com/hippo/ehviewer/gallery/gl/PagerLayoutManager.java:770-783 | the index is the target; no page or placeholder is left; the pager is at rest; a fill is requested last |
| CurrentIndex.JumpAccounting | app/src/main/java/com/hippo/ehviewer/gallery/gl/PagerLayoutManager.java:770-783 | a far jump releases every held view and obtains none |
| CurrentIndex.SetCurrentIndex | app/src/main/java/com/hippo/ehviewer/gallery/gl/PagerLayoutManager.java:741-784 | a target equal to the index or out of range (size <= 0 meaning Integer.MAX_VALUE) is ignored; with no current page only the index is stored; a neighbouring target is one `pagePrevious` or `pageNext` of the window at rest, releasing exactly the view that falls off and obtaining exactly the new edge page, with placeholders and scroller untouched; any other target drops every view at rest; a page change requests a fill last |
| CurrentIndex.ShiftThenFillAccounting | app/src/main/java/com/hippo/ehviewer/gallery/gl/PagerLayoutManager.java:752-769 | appending the fill request keeps the accounting law |
| CurrentIndex.SetCurrentIndexAccounting | app/src/main/java/com/hippo/ehviewer/gallery/gl/PagerLayoutManager.java:741-784 | setCurrentIndex never leaks or invents a page view |
| CurrentIndex.NeighbourThenFill | app/src/main/java/com/hippo/ehviewer/gallery/gl/PagerLayoutManager.java:752-769 | from a canonical window, a one-page move leaves a canonical window at rest that the next fill keeps as it is |
| CurrentIndex.JumpThenFill | app/src/main/java/com/hippo/ehviewer/gallery/gl/PagerLayoutManager.java:770-783 | after a jump the next fill builds the canonical window around the target, at rest |
| CurrentIndex.SetCurrentIndexThenFill | app/src/main/java/com/hippo/ehviewer/gallery/gl/PagerLayoutManager.java:741-784 | from a canonical window, a change to another page is completed by the next fill into the canonical window at the target, at rest |
| CurrentIndex.OnPageLeft | app/src/main/java/com/hippo/ehviewer/gallery/gl/PagerLayoutManager.java:653-681 | nothing without size or current page; a left-edge bounce at the left end; otherwise a page change one step left |
| CurrentIndex.OnPageRight | app/src/main/java/com/hippo/ehviewer/gallery/gl/PagerLayoutManager.java:683-711 | the mirror image, bouncing on the right edge |
| CurrentIndex.PageLeftCommand | app/src/main/java/com/hippo/ehviewer/gallery/gl/PagerLayoutManager.java:653-681 | in a canonical window page-left goes to the left page when there is one and bounces iff there is none |
| CurrentIndex.PageRightCommand | app/src/main/java/com/hippo/ehviewer/gallery/gl/PagerLayoutManager.java:683-711 | in a canonical window page-right goes to the right page when there is one and bounces iff there is none |
| CurrentIndex.SetCurrentIndexIgnoresMode | app/src/main/java/com/hippo/ehviewer/gallery/gl/PagerLayoutManager.java:741-784 | setCurrentIndex does not depend on the reading mode |
| CurrentIndex.MirrorPageLeft | app/src/main/java/com/hippo/ehviewer/gallery/gl/PagerLayoutManager.java:653-711 | page-left right to left makes the same index change as page-right left to right, and bounces at the same boundary on its own edge |
| CurrentIndex.MirrorPageRight | app/src/main/java/com/hippo/ehviewer/gallery/gl/PagerLayoutManager.java:653-711 | page-right right to left makes the same index change as page-left left to right, and bounces at the same boundary on its own edge |
| CurrentIndex.RightToLeftLastPageBouncesLeft | app/src/main/java/com/hippo/ehviewer/gallery/gl/PagerLayoutManager.java:669-679 | right to left at the last of five pages, page-left bounces and page-right goes to page 3 |
| Gestures.OnDown | app/src/main/java/com/hippo/ehviewer/gallery/gl/PagerLayoutManager.java:342-346 | deltas cleared, every animation stopped, and the stop flag is the cancel report |
| Gestures.IsTapOrPressEnable | app/src/main/java/com/hippo/ehviewer/gallery/gl/PagerLayoutManager.java:713-715 | taps and presses count iff the last touch-down stopped no animation |
| Gestures.TapAfterDown | app/src/main/java/com/hippo/ehviewer/gallery/gl/PagerLayoutManager.java:713-715 | after a touch-down, taps count iff neither the smooth scroller nor the fling was running; a running scale alone does not block them |
| Gestures.SettleDistance | app/src/main/java/com/hippo/ehviewer/gallery/gl/PagerLayoutManager.java:360-366 | dragged at least one gap towards an existing left page, the scroll is the offset less one page span; likewise towards an existing right page, the offset plus one span; otherwise the offset itself |
| Gestures.SettleLandsOnPage | app/src/main/java/com/hippo/ehviewer/gallery/gl/PagerLayoutManager.java:357-366 | the settle distance lands exactly on a page with nothing left over and offset 0: the left page past one gap left, the right page past one gap right, else the current page |
| Gestures.OnUp | app/src/main/java/com/hippo/ehviewer/gallery/gl/PagerLayoutManager.java:349-370 | edge glows are released; with a current page off rest the smooth scroller starts over the settle distance and nothing else changes (fling and scaler untouched); otherwise nothing changes |
| Gestures.OnDoubleTapConfirmed | app/src/main/java/com/hippo/ehviewer/gallery/gl/PagerLayoutManager.java:374-393 | a scale starts iff a loaded current page exists, towards the next scale level |
| Gestures.OnFling | app/src/main/java/com/hippo/ehviewer/gallery/gl/PagerLayoutManager.java:603-613 | a fling starts only on a loaded, flingable current page at offset 0, with the planned clamped distances; the smooth scroller, the scaler and the rest of the state are untouched |
| Drag.OnEdge | app/src/main/java/com/hippo/ehviewer/gallery/gl/PagerLayoutManager.java:571-573 | the drag is on an edge iff no horizontal distance is left, or the window is at rest and no page exists in the drag's direction |
| Drag.OverScrollEdge | app/src/main/java/com/hippo/ehviewer/gallery/gl/PagerLayoutManager.java:515-519 | the unused deltas accumulate and pull the edge glows by the totals |
| Drag.ImageTurn | app/src/main/java/com/hippo/ehviewer/gallery/gl/PagerLayoutManager.java:563-567 | the image's turn hands back no more horizontal distance than it was given, and none of the opposite sign when the image never reverses a delta |
| Drag.BetweenPages | app/src/main/java/com/hippo/ehviewer/gallery/gl/PagerLayoutManager.java:578-583 | the offset engine's pass: deltas cleared, the clamp range kept, the remainder within the distance and strictly smaller off an edge, and viewport position plus remainder conserved in a canonical window |
| Drag.DragStep | app/src/main/java/com/hippo/ehviewer/gallery/gl/PagerLayoutManager.java:562-589 | one pass of the loop: only the offset engine moves the window, and only when the drag may move between pages; no horizontal distance means no movement; the viewport moves by a step that, with the new remainder, fits in the old one; the loop's measure drops |
| Drag.DragLoop | app/src/main/java/com/hippo/ehviewer/gallery/gl/PagerLayoutManager.java:562-590 | the loop terminates; from a canonical window in range the viewport moves by at most the drag's horizontal distance, in its direction when the image never reverses a delta; the window stays put with no horizontal distance or when the drag may not move between pages; a page change sets the fill flag |
| Drag.ScrollInternal | app/src/main/java/com/hippo/ehviewer/gallery/gl/PagerLayoutManager.java:548-595 | the window moves only through the offset engine, stays in range and canonical, and stays put when the drag has no horizontal part or may not move between pages; from a canonical window in range the viewport moves at most `Abs(dx)`, in `dx`'s direction when the image never reverses a delta; a page change requests a fill |

## Left out

- `setMode`, `onAttach`, `onDetach` and `onDataChanged`: structural resets built from the same pieces (cancel, remove, reset, request fill). They are not modelled as separate operations.
- `findPageByIndex`, `getCurrentIndex`, `getIndexUnder`, `getInternalCurrentIndex`, `canScale`, `onScale`, `onLongPress` and `onUpdateAnimation`: queries and pass-throughs to the image view, with no window or offset logic.
- Measure, layout and placeholder centring (`onFill` after line 320, `placeCenter`): rendering only.
- Edge glows: `overScrollEdge` is an effect carrying the accumulated deltas. The edge bounces in `onPageLeft`/`onPageRight`, the edge release in `onUp`, and `PageFling.onFinish` are also opaque effects or left out.
- Floating point: interpolators, durations, the spline fling distance and duration, the smooth scaler's interpolation, and the `1.5x` direction test.
  - The smooth scroller's interpolated samples are inputs to `SmoothScroll.OnCalculate`.
  - The fling's spline distances and durations are inputs to `Gestures.OnFling`.
  - The direction test is the boolean `horizontal` of `Drag.ScrollInternal`.
  - The float-to-int casts of drag deltas are taken as already done.
- `PageFling.onCalculate` and `SmoothScaler.onCalculate`: they only forward to the image view.
- The animation clock, `Animation` and `Fling` base classes: an animation is a running flag. `adjustDuration` is a function parameter.
- `ImageView` internals: `scroll` is a function parameter. Loading, flingability and scale levels are inputs.
- `GalleryProvider` is not part of this model. Its sentinels are taken as `STATE_WAIT = -1` and `STATE_ERROR = -2`.
- `mGalleryView.invalidate()` (lines 832, 903, 969) and the `Log.e` lines of the index clamp (lines 285, 290): redraw requests and logging change no state and are not logged as effects.
- Java `int` overflow: integers are unbounded. Near `Integer.MAX_VALUE` the source's sums (`index + 1`, `width + interval`, the edge deltas) could wrap; the model does not.
- Drag.ScrollInternal: requires that the image's scroll never hands back more horizontal distance than it was given (`Drag.Absorbing`). Without this, the drag loop need not terminate; the image view's code is not part of this model.
- AnimationRules.CancelAllAnimations: its contract states only that a "running" report implies an animation was running. The exact rule, wrong only when the scaler alone runs, is `AnimationRules.CancelReportsAllButScaler`.
- Drag.ScrollInternal: the direction of the viewport's movement is stated only for an image that never reverses a delta (`Drag.KeepsDirection`); `ImageView.scroll` is not part of this model, so for other images only the size bound `Abs(dx)` is stated.
- SmoothScroll.OnCalculate and Drag.ScrollInternal: they state bounds, canonicity and fill requests. They do not state the full effect log of each iteration.

=== FILE: animations.dfy ===
/** The animation rules of the pager: stopping all animations, choosing the
    next double-tap scale level, and planning a page fling. */
module AnimationRules {
  import opened PagerState

  /** The state every animation is stopped in. */
  const Stopped: Animations := Animations(false, false, false)

  /** Whether any of the three animations runs. */
  predicate AnyRunning(a: Animations) {
    a.scroller || a.fling || a.scaler
  }

  /** `cancelAllAnimations`: stops all three animations and reports whether
      one was running. As written it asks the smooth scroller twice and never
      asks the smooth scaler. */
  function CancelAllAnimations(a: Animations): (r: (bool, Animations))
    ensures r.1 == Stopped && !AnyRunning(r.1)
    ensures r.0 ==> AnyRunning(a)
  {
    (a.scroller || a.fling || a.scroller, Stopped)
  }

  /** The report of `cancelAllAnimations` is right exactly when the smooth
      scaler is not the only animation running: a running scale alone is
      reported as "nothing was running". */
  lemma CancelReportsAllButScaler(a: Animations)
    ensures CancelAllAnimations(a).0 == AnyRunning(a) <==> !(a.scaler && !a.scroller && !a.fling)
    ensures !CancelAllAnimations(a).0 ==> !a.scroller && !a.fling
  {
  }

  /** Cancelling twice: the second call finds nothing running. */
  lemma CancelIdempotent(a: Animations)
    ensures CancelAllAnimations(CancelAllAnimations(a).1) == (false, Stopped)
  {
  }

  // ---------------------------------------------------------------------------
  // Double tap: the next scale level.

  /** The first position in `scales` holding a level strictly above `scale`. */
  function FirstAbove(scales: seq<real>, scale: real): (r: Option<nat>)
    ensures r.Some? ==> r.value < |scales| && scale < scales[r.value]
    ensures r.Some? ==> forall j :: 0 <= j < r.value ==> scales[j] <= scale
    ensures r.None? ==> forall j :: 0 <= j < |scales| ==> scales[j] <= scale
  {
    if |scales| == 0 then None
    else if scale < scales[0] then Some(0)
    else
      match FirstAbove(scales[1..], scale)
      case None => None
      case Some(k) => Some(k + 1)
  }

  /** The level a double tap scales to, as the specification of the search
      below: the first level above the current scale, or the first level when
      none is above. */
  function ScaleTarget(scales: seq<real>, scale: real): real
    requires |scales| > 0
  {
    match FirstAbove(scales, scale)
    case None => scales[0]
    case Some(k) => scales[k]
  }

  /** The search of `onDoubleTapConfirmed` over the image's default scale
      levels: the first level above the current scale, else the first level. */
  method NextScale(scales: seq<real>, scale: real) returns (endScale: real)
    requires |scales| > 0
    ensures endScale == ScaleTarget(scales, scale)
    ensures endScale in scales
  {
    endScale := scales[0];
    var i := 0;
    while i < |scales|
      invariant 0 <= i <= |scales|
      invariant forall j :: 0 <= j < i ==> scales[j] <= scale
      invariant endScale == scales[0]
    {
      var value := scales[i];
      if scale < value {
        endScale := value;
        FirstAboveIsFirst(scales, scale, i);
        return;
      }
      i := i + 1;
    }
    FirstAboveNone(scales, scale);
  }

  /** The position found is the first one above the scale. */
  lemma {:induction false} FirstAboveIsFirst(scales: seq<real>, scale: real, i: nat)
    requires i < |scales| && scale < scales[i]
    requires forall j :: 0 <= j < i ==> scales[j] <= scale
    ensures FirstAbove(scales, scale) == Some(i)
  {
    if i > 0 {
      FirstAboveIsFirst(scales[1..], scale, i - 1);
    }
  }

  /** No position is found when every level is at or below the scale. */
  lemma {:induction false} FirstAboveNone(scales: seq<real>, scale: real)
    requires forall j :: 0 <= j < |scales| ==> scales[j] <= scale
    ensures FirstAbove(scales, scale) == None
  {
    if |scales| > 0 {
      FirstAboveNone(scales[1..], scale);
    }
  }

  predicate StrictlyIncreasing(scales: seq<real>) {
    forall i, j :: 0 <= i < j < |scales| ==> scales[i] < scales[j]
  }

  /** With strictly increasing levels, double taps cycle through them: from
      one level a double tap goes to the next, and from the last back to the
      first. */
  lemma DoubleTapCycles(scales: seq<real>, k: nat)
    requires StrictlyIncreasing(scales) && k < |scales|
    ensures ScaleTarget(scales, scales[k]) == if k + 1 < |scales| then scales[k + 1] else scales[0]
  {
    if k + 1 < |scales| {
      FirstAboveIsFirst(scales, scales[k], k + 1);
    } else {
      FirstAboveNone(scales, scales[k]);
    }
  }

  // ---------------------------------------------------------------------------
  // Page fling.

  /** One axis of a fling: the distance travelled and its duration. */
  datatype AxisPlan = AxisPlan(distance: int, duration: int)

  /** `PageFling.startFling` on one axis: a distance below the image's range is
      raised to its low end, then one above it lowered to its high end; each
      change recomputes the duration with the fling's `adjustDuration`. */
  function ClampAxis(d: int, lo: int, hi: int, duration: int, adjust: (int, int, int, int) -> int): (r: AxisPlan)
    ensures lo <= hi ==> r.distance == Clamp(d, lo, hi)
    ensures lo <= hi ==> lo <= r.distance <= hi
    ensures lo > hi ==> r.distance == hi
    ensures lo <= d <= hi ==> r == AxisPlan(d, duration)
  {
    var low := if d < lo then AxisPlan(lo, adjust(0, d, lo, duration)) else AxisPlan(d, duration);
    if low.distance > hi then AxisPlan(hi, adjust(0, low.distance, hi, low.duration)) else low
  }

  /** Clamping an axis plan a second time changes nothing. */
  lemma ClampAxisIdempotent(d: int, lo: int, hi: int, duration: int, adjust: (int, int, int, int) -> int)
    requires lo <= hi
    ensures var r := ClampAxis(d, lo, hi, duration, adjust);
      ClampAxis(r.distance, lo, hi, r.duration, adjust) == r
  {
  }

  datatype FlingPlan = NoFling | Fling(dx: int, dy: int, duration: int)

  /** `PageFling.startFling` after the spline distances and durations are
      known: clamp both axes to the image's scroll range; when both clamped
      distances are zero the fling does not start; otherwise it runs for the
      longer of the two durations. */
  function PlanFling(dx: int, minX: int, maxX: int, durationX: int,
                     dy: int, minY: int, maxY: int, durationY: int,
                     adjust: (int, int, int, int) -> int): (r: FlingPlan)
    ensures var x := ClampAxis(dx, minX, maxX, durationX, adjust);
            var y := ClampAxis(dy, minY, maxY, durationY, adjust);
      && (r.NoFling? <==> x.distance == 0 && y.distance == 0)
      && (r.Fling? ==> r.dx == x.distance && r.dy == y.distance)
      && (r.Fling? ==> r.duration >= x.duration && r.duration >= y.duration)
      && (r.Fling? ==> r.duration == x.duration || r.duration == y.duration)
  {
    var x := ClampAxis(dx, minX, maxX, durationX, adjust);
    var y := ClampAxis(dy, minY, maxY, durationY, adjust);
    if x.distance == 0 && y.distance == 0 then NoFling
    else Fling(x.distance, y.distance, if x.duration >= y.duration then x.duration else y.duration)
  }

  /** A fling never carries the image past its scroll range, and it starts
      exactly when the clamped distance is non-zero on some axis. */
  lemma FlingStaysInRange(dx: int, minX: int, maxX: int, durationX: int,
                          dy: int, minY: int, maxY: int, durationY: int,
                          adjust: (int, int, int, int) -> int)
    requires minX <= maxX && minY <= maxY
    ensures var r := PlanFling(dx, minX, maxX, durationX, dy, minY, maxY, durationY, adjust);
      && (r.Fling? ==> minX <= r.dx <= maxX && minY <= r.dy <= maxY)
      && (r.NoFling? <==> Clamp(dx, minX, maxX) == 0 && Clamp(dy, minY, maxY) == 0)
  {
  }

  /** When the image cannot move at all along either axis, no fling starts. */
  lemma StuckImageNeverFlings(dx: int, durationX: int, dy: int, durationY: int,
                              adjust: (int, int, int, int) -> int)
    ensures PlanFling(dx, 0, 0, durationX, dy, 0, 0, durationY, adjust) == NoFling
  {
  }
}

=== FILE: current_index.dfy ===
/** Jumping to a page: `setCurrentIndex`, and the page-left / page-right
    commands built on it. */
module CurrentIndex {
  import opened PagerState
  import opened PageWindow
  import opened ModePolicy
  import opened OffsetEngine
  import opened AnimationRules
  import opened Fill

  /** `cancelAllAnimations` followed by `resetParameters`, the preamble of
      every page change. */
  function Restart(p: Pager): (r: Pager)
    ensures r.anims == Stopped && r.window.offset == 0 && r.gesture == AtRest
    ensures r.window == p.window.(offset := 0)
    ensures r.mode == p.mode && r.views == p.views
  {
    ResetParameters(p.(anims := CancelAllAnimations(p.anims).1))
  }

  /** The size `setCurrentIndex` checks against: the adapter's, or
      `Integer.MAX_VALUE` while the adapter cannot tell. */
  function KnownSize(size: int): (r: int)
    ensures r >= 1
    ensures size >= 1 ==> r == size
    ensures size <= 0 ==> r == IntMax
  {
    if size <= 0 then IntMax else size
  }

  /** The far branch of `setCurrentIndex`: store the target, stop the
      animations, drop both placeholders and every page view, put the offset
      to rest and request a fill. */
  function Jump(p: Pager, target: int): (r: Step)
    ensures r.pager.window.index == target && NoPages(r.pager.window) && r.pager.window.offset == 0
    ensures !r.pager.views.progress && !r.pager.views.errorView && r.pager.anims == Stopped
    ensures r.pager.gesture == AtRest
    ensures r.pager.mode == p.mode
    ensures |r.effects| > 0 && r.effects[|r.effects| - 1] == RequestFill
  {
    var q0 := p.(window := p.window.(index := target));
    var q1 := q0.(anims := CancelAllAnimations(q0.anims).1);
    var s1 := RemoveProgress(q1);
    var s2 := RemoveErrorView(s1.pager);
    var s3 := RemoveAllPages(s2.pager.window);
    var q := ResetParameters(s2.pager.(window := s3.window));
    Step(q, s1.effects + s2.effects + s3.effects + [RequestFill])
  }

  /** A jump releases every view the window held and obtains none. */
  lemma JumpAccounting(p: Pager, target: int)
    ensures Released(Jump(p, target).effects) == Held(p.window)
    ensures Obtained(Jump(p, target).effects) == multiset{}
  {
    var q0 := p.(window := p.window.(index := target));
    var q1 := q0.(anims := CancelAllAnimations(q0.anims).1);
    var s1 := RemoveProgress(q1);
    var s2 := RemoveErrorView(s1.pager);
    var s3 := RemoveAllPages(s2.pager.window);
    var hides := s1.effects + s2.effects;
    assert Quiet(hides);
    QuietAccounting(hides);
    QuietAccounting([RequestFill]);
    assert Jump(p, target).effects == hides + s3.effects + [RequestFill];
    AccountingSum(hides, s3.effects, [RequestFill]);
    assert s2.pager.window == q0.window;
    assert Held(q0.window) == Held(p.window);
  }

  /** `setCurrentIndex`. A target equal to the index or outside the gallery is
      ignored. Without a current page only the index is stored. A neighbouring
      target shifts the window by one page; any other target drops every view
      and leaves the refill to `onFill`. Every page change stops the
      animations, puts the offset to rest and requests a fill. */
  function SetCurrentIndex(p: Pager, size: int, target: int): (r: Step)
    ensures target == p.window.index || target < 0 || target >= KnownSize(size) ==> r == Step(p, [])
    ensures var moves := target != p.window.index && 0 <= target < KnownSize(size);
      && (moves && p.window.current.Empty? ==> r == Step(p.(window := p.window.(index := target)), []))
      && (moves && p.window.current.Holds? ==>
            && r.pager.anims == Stopped && r.pager.window.offset == 0
            && r.pager.gesture == AtRest
            && |r.effects| > 0 && r.effects[|r.effects| - 1] == RequestFill
            && r.pager.mode == p.mode)
      && (moves && p.window.current.Holds? && size >= 1 ==> r.pager.window.index == target)
      && (moves && p.window.current.Holds? && target == p.window.index - 1 ==>
            r.pager.window.current == p.window.previous && r.pager.window.next == p.window.current)
      && (moves && p.window.current.Holds? && target == p.window.index + 1 && size >= 1 ==>
            r.pager.window.current == p.window.next && r.pager.window.previous == p.window.current)
      && (moves && p.window.current.Holds? && target != p.window.index - 1 && target != p.window.index + 1 ==>
            && r.pager.window.index == target && NoPages(r.pager.window)
            && !r.pager.views.progress && !r.pager.views.errorView)
    ensures target != p.window.index && 0 <= target < KnownSize(size) && p.window.current.Holds?
            && (target == p.window.index - 1 || target == p.window.index + 1) ==>
      r.pager.views == p.views && r.pager.scroller == p.scroller
    ensures target == p.window.index - 1 && 0 <= target < KnownSize(size) && p.window.current.Holds? ==>
      && r.pager.window == PagePrevious(p.window.(offset := 0)).window
      && Released(r.effects) == SlotPages(p.window.next)
      && Obtained(r.effects) == SlotPages(r.pager.window.previous)
    ensures target == p.window.index + 1 && 0 <= target < KnownSize(size) && p.window.current.Holds? ==>
      r.pager.window == PageNext(p.window.(offset := 0), size).window
    ensures target == p.window.index + 1 && 0 <= target < size && p.window.current.Holds? ==>
      && Released(r.effects) == SlotPages(p.window.previous)
      && Obtained(r.effects) == SlotPages(r.pager.window.next)
  {
    var w := p.window;
    if target == w.index || target < 0 || target >= KnownSize(size) then Step(p, [])
    else if w.current.Empty? then Step(p.(window := w.(index := target)), [])
    else if target == w.index - 1 then
      var q := Restart(p);
      var s := PagePrevious(q.window);
      ShiftEffects(q.window, size);
      RequestFillAccounting(s.effects);
      Step(q.(window := s.window), s.effects + [RequestFill])
    else if target == w.index + 1 then
      var q := Restart(p);
      var s := PageNext(q.window, size);
      ShiftEffects(q.window, size);
      RequestFillAccounting(s.effects);
      Step(q.(window := s.window), s.effects + [RequestFill])
    else
      Jump(p, target)
  }

  /** The fill request touches no page view. */
  lemma RequestFillAccounting(es: seq<Effect>)
    ensures Released(es + [RequestFill]) == Released(es) && Obtained(es + [RequestFill]) == Obtained(es)
  {
    AccountingConcat(es, [RequestFill]);
    QuietAccounting([RequestFill]);
  }

  /** A one-page shift followed by the fill request keeps the accounting law. */
  lemma ShiftThenFillAccounting(w: Window, s: Shift)
    requires Accounted(w, s)
    ensures Accounted(w, Shift(s.window, s.effects + [RequestFill]))
  {
    var es := s.effects + [RequestFill];
    AccountingConcat(s.effects, [RequestFill]);
    assert [RequestFill][1..] == [];
    assert Released(es) == Released(s.effects);
    assert Obtained(es) == Obtained(s.effects);
  }

  /** The page views `setCurrentIndex` releases and obtains are exactly the
      difference between the slots before and after: no view leaks. */
  lemma SetCurrentIndexAccounting(p: Pager, size: int, target: int)
    ensures var r := SetCurrentIndex(p, size, target);
      Accounted(p.window, Shift(r.pager.window, r.effects))
  {
    var w := p.window;
    var v := w.(offset := 0);
    if target == w.index || target < 0 || target >= KnownSize(size) || w.current.Empty? {
    } else if target == w.index - 1 {
      WindowShiftAccounting(v, size);
      ShiftThenFillAccounting(v, PagePrevious(v));
    } else if target == w.index + 1 {
      WindowShiftAccounting(v, size);
      ShiftThenFillAccounting(v, PageNext(v, size));
    } else {
      JumpAccounting(p, target);
    }
  }

  /** A move to a neighbouring page keeps the window canonical, so the next
      fill only clamps the offset, which is already at rest. */
  lemma NeighbourThenFill(p: Pager, g: Geometry, size: int, target: int)
    requires ValidGeometry(g) && Canonical(p.window, size)
    requires 0 <= target < size && (target == p.window.index - 1 || target == p.window.index + 1)
    ensures var q := SetCurrentIndex(p, size, target).pager;
            var f := FillWindow(q.window, q.mode, g, size);
      && Canonical(f.window, size) && f.window.index == target && f.window.offset == 0
  {
    var v := p.window.(offset := 0);
    var q := SetCurrentIndex(p, size, target).pager;
    ShiftKeepsCanonical(v, size);
    assert q.window == (if target == p.window.index - 1 then PagePrevious(v) else PageNext(v, size)).window;
    FillFixesCanonical(q.window, q.mode, g, size);
  }

  /** A jump leaves no view behind, so the next fill builds the canonical
      window around the target from scratch. */
  lemma JumpThenFill(p: Pager, g: Geometry, size: int, target: int)
    requires ValidGeometry(g) && p.window.current.Holds?
    requires 0 <= target < size && target != p.window.index
    requires target != p.window.index - 1 && target != p.window.index + 1
    ensures var q := SetCurrentIndex(p, size, target).pager;
            var f := FillWindow(q.window, q.mode, g, size);
      && Canonical(f.window, size) && f.window.index == target && f.window.offset == 0
  {
    var q := SetCurrentIndex(p, size, target).pager;
    assert q.window.index == target && NoPages(q.window) && q.window.offset == 0;
    FillCompletes(q.window, q.mode, g, size);
  }

  /** From a canonical window, a page change to any other page of the gallery
      is completed by the next fill into the canonical window around the
      target, at rest. */
  lemma SetCurrentIndexThenFill(p: Pager, g: Geometry, size: int, target: int)
    requires ValidGeometry(g) && Canonical(p.window, size)
    requires 0 <= target < size && target != p.window.index
    ensures var q := SetCurrentIndex(p, size, target).pager;
            var f := FillWindow(q.window, q.mode, g, size);
      && Canonical(f.window, size) && f.window.index == target && f.window.offset == 0
  {
    if target == p.window.index - 1 || target == p.window.index + 1 {
      NeighbourThenFill(p, g, size, target);
    } else {
      JumpThenFill(p, g, size, target);
    }
  }

  /** The command reaches the leftmost page shown: the first page left to
      right, the last page right to left. */
  predicate AtLeftEnd(p: Pager, size: int) {
    if p.mode == LeftToRight then p.window.index == 0 else p.window.index >= size - 1
  }

  predicate AtRightEnd(p: Pager, size: int) {
    if p.mode == LeftToRight then p.window.index >= size - 1 else p.window.index == 0
  }

  /** `onPageLeft`: nothing while the gallery is not ready or no page is
      shown; at the left end an edge bounce on the left; otherwise a page
      change one step against the reading direction's right. */
  function OnPageLeft(p: Pager, size: int): (r: Step)
    ensures size <= 0 || p.window.current.Empty? ==> r == Step(p, [])
    ensures size > 0 && p.window.current.Holds? && AtLeftEnd(p, size) ==> r == Step(p, [EdgeBounce(LeftEdge)])
    ensures size > 0 && p.window.current.Holds? && !AtLeftEnd(p, size) ==>
      r == SetCurrentIndex(p, size, p.window.index - RightStep(p.mode))
  {
    if size <= 0 || p.window.current.Empty? then Step(p, [])
    else if p.mode == LeftToRight then
      if p.window.index == 0 then Step(p, [EdgeBounce(LeftEdge)])
      else SetCurrentIndex(p, size, p.window.index - 1)
    else
      if p.window.index >= size - 1 then Step(p, [EdgeBounce(LeftEdge)])
      else SetCurrentIndex(p, size, p.window.index + 1)
  }

  /** `onPageRight`: the mirror image, bouncing on the right edge. */
  function OnPageRight(p: Pager, size: int): (r: Step)
    ensures size <= 0 || p.window.current.Empty? ==> r == Step(p, [])
    ensures size > 0 && p.window.current.Holds? && AtRightEnd(p, size) ==> r == Step(p, [EdgeBounce(RightEdge)])
    ensures size > 0 && p.window.current.Holds? && !AtRightEnd(p, size) ==>
      r == SetCurrentIndex(p, size, p.window.index + RightStep(p.mode))
  {
    if size <= 0 || p.window.current.Empty? then Step(p, [])
    else if p.mode == LeftToRight then
      if p.window.index >= size - 1 then Step(p, [EdgeBounce(RightEdge)])
      else SetCurrentIndex(p, size, p.window.index + 1)
    else
      if p.window.index == 0 then Step(p, [EdgeBounce(RightEdge)])
      else SetCurrentIndex(p, size, p.window.index - 1)
  }

  /** In a canonical window, "page left" goes to the page drawn on the left
      exactly when there is one, and bounces on the left edge otherwise. */
  lemma PageLeftCommand(p: Pager, size: int)
    requires Canonical(p.window, size)
    ensures var r := OnPageLeft(p, size); var left := LeftPage(p.window, p.mode);
      && (left.Holds? ==> r.pager.window.index == left.page && r.pager.window.current == left)
      && (left.Empty? <==> r == Step(p, [EdgeBounce(LeftEdge)]))
  {
    CanonicalSides(p.window, p.mode, size);
  }

  /** In a canonical window, "page right" goes to the page drawn on the right
      exactly when there is one, and bounces on the right edge otherwise. */
  lemma PageRightCommand(p: Pager, size: int)
    requires Canonical(p.window, size)
    ensures var r := OnPageRight(p, size); var right := RightPage(p.window, p.mode);
      && (right.Holds? ==> r.pager.window.index == right.page && r.pager.window.current == right)
      && (right.Empty? <==> r == Step(p, [EdgeBounce(RightEdge)]))
  {
    CanonicalSides(p.window, p.mode, size);
  }

  /** `setCurrentIndex` does not depend on the reading mode. */
  lemma SetCurrentIndexIgnoresMode(p: Pager, size: int, target: int, m: Mode)
    ensures SetCurrentIndex(p.(mode := m), size, target)
         == Step(SetCurrentIndex(p, size, target).pager.(mode := m), SetCurrentIndex(p, size, target).effects)
  {
  }

  /** The commands mirror each other: "page left" right to left changes the
      index exactly as "page right" left to right does, and bounces at the
      same boundary, each on its own edge. */
  lemma MirrorPageLeft(p: Pager, size: int)
    ensures var l := OnPageLeft(p.(mode := RightToLeft), size);
            var r := OnPageRight(p.(mode := LeftToRight), size);
      && l.pager == r.pager.(mode := RightToLeft)
      && (l.effects == [EdgeBounce(LeftEdge)] <==> r.effects == [EdgeBounce(RightEdge)])
      && (l.effects != [EdgeBounce(LeftEdge)] ==> l.effects == r.effects)
  {
    var pl := p.(mode := LeftToRight);
    SetCurrentIndexIgnoresMode(pl, size, p.window.index + 1, RightToLeft);
    assert pl.(mode := RightToLeft) == p.(mode := RightToLeft);
  }

  /** And "page right" right to left is "page left" left to right. */
  lemma MirrorPageRight(p: Pager, size: int)
    ensures var l := OnPageLeft(p.(mode := LeftToRight), size);
            var r := OnPageRight(p.(mode := RightToLeft), size);
      && r.pager == l.pager.(mode := RightToLeft)
      && (r.effects == [EdgeBounce(RightEdge)] <==> l.effects == [EdgeBounce(LeftEdge)])
      && (r.effects != [EdgeBounce(RightEdge)] ==> l.effects == r.effects)
  {
    var pl := p.(mode := LeftToRight);
    SetCurrentIndexIgnoresMode(pl, size, p.window.index - 1, RightToLeft);
    assert pl.(mode := RightToLeft) == p.(mode := RightToLeft);
  }

  /** Right to left, the page drawn on the left is the next page, so at the
      last page of a five-page gallery "page left" bounces on the left edge
      and the index stays 4. */
  lemma RightToLeftLastPageBouncesLeft(p: Pager)
    requires p.mode == RightToLeft && p.window == Window(4, 0, Holds(3), Holds(4), Empty)
    ensures Canonical(p.window, 5)
    ensures OnPageLeft(p, 5) == Step(p, [EdgeBounce(LeftEdge)])
    ensures OnPageRight(p, 5).pager.window.index == 3
  {
  }
}

=== FILE: drag.dfy ===
/** `scrollInternal`, the drag handler: a drag delta is offered first to the
    current image (to pan it), then to the offset engine (to move between
    pages), and what is left at an edge becomes an over-scroll pull. */
module Drag {
  import opened PagerState
  import opened ModePolicy
  import opened OffsetEngine

  /** `ImageView.scroll` as the drag handler sees it: given the number of
      earlier calls in this drag and a delta, it pans the image and hands back
      the part of the delta it could not use. Its internals are not modelled. */
  type ImageScroll = (nat, int, int) -> (int, int)

  /** The image never hands back more horizontal distance than it was given. */
  ghost predicate Absorbing(image: ImageScroll) {
    forall k: nat, a: int, b: int :: Abs(image(k, a, b).0) <= Abs(a)
  }

  /** The image never reverses a delta: what it hands back has the sign of
      what it was given. */
  ghost predicate KeepsDirection(image: ImageScroll) {
    forall k: nat, a: int, b: int :: Within(image(k, a, b).0, a)
  }

  /** The drag sits against an edge: nothing horizontal is left, or the
      offset is at rest and there is no page in the direction of the drag. */
  function OnEdge(w: Window, m: Mode, remainX: int): (r: bool)
    ensures r <==> remainX == 0 || (w.offset == 0 && Toward(w, m, remainX).Empty?)
  {
    || remainX == 0
    || (LeftPage(w, m).Empty? && w.offset == 0 && remainX < 0)
    || (RightPage(w, m).Empty? && w.offset == 0 && remainX > 0)
  }

  /** `overScrollEdge`: accumulate the deltas the pager could not use and pull
      the edge glows by them; the glow itself is the host's. */
  function OverScrollEdge(p: Pager, dx: int, dy: int): (r: Step)
    ensures r.pager.gesture.deltaX == p.gesture.deltaX + dx && r.pager.gesture.deltaY == p.gesture.deltaY + dy
    ensures r.pager == p.(gesture := r.pager.gesture)
    ensures r.pager.gesture.(deltaX := p.gesture.deltaX, deltaY := p.gesture.deltaY) == p.gesture
    ensures r.effects == [Overscroll(r.pager.gesture.deltaX, r.pager.gesture.deltaY)]
  {
    var g := p.gesture.(deltaX := p.gesture.deltaX + dx, deltaY := p.gesture.deltaY + dy);
    Step(p.(gesture := g), [Overscroll(g.deltaX, g.deltaY)])
  }

  /** The image's turn in `scrollInternal`: `ImageView.scroll` pans the image
      and hands back what it could not use. */
  method ImageTurn(image: ImageScroll, calls: nat, dx: int, dy: int) returns (rx: int, ry: int)
    requires Absorbing(image)
    ensures (rx, ry) == image(calls, dx, dy)
    ensures Abs(rx) <= Abs(dx)
    ensures KeepsDirection(image) ==> Within(rx, dx)
  {
    rx, ry := image(calls, dx, dy).0, image(calls, dx, dy).1;
  }

  /** The page-moving branch of `scrollInternal`: the offset engine takes the
      horizontal distance `d`, and the deltas are cleared. */
  method BetweenPages(q: Pager, g: Geometry, size: int, d: int) returns (q2: Pager, effects: seq<Effect>, remain: int)
    requires ValidGeometry(g)
    ensures q2 == q.(window := q2.window, gesture := q.gesture.(deltaX := 0, deltaY := 0))
    ensures InBounds(q.window, q.mode, g) ==> InBounds(q2.window, q.mode, g) && Within(remain, d)
    ensures remain != 0 ==> InBounds(q2.window, q.mode, g)
    ensures InBounds(q.window, q.mode, g) && !OnEdge(q.window, q.mode, d) ==> Abs(remain) < Abs(d)
    ensures Canonical(q.window, size) ==>
      && Canonical(q2.window, size)
      && Position(q2.window, q.mode, g) + remain == Position(q.window, q.mode, g) + d
  {
    var w, m := q.window, q.mode;
    ScrollKeepsBounds(w, m, g, size, d);
    if InBounds(w, m, g) {
      ScrollRemainder(w, m, g, size, d);
    }
    if Canonical(w, size) {
      ScrollConservesPosition(w, m, g, size, d);
    }
    var s := ScrollBetweenPages(w, m, g, size, d);
    q2 := q.(window := s.window, gesture := q.gesture.(deltaX := 0, deltaY := 0));
    effects := s.effects;
    remain := s.remain;
  }

  /** The loop of `scrollInternal` makes progress: first the window enters
      the clamp range, then the horizontal distance shrinks, then the image's
      pending turn is used up, then nothing is left. */
  function Stage(w: Window, m: Mode, g: Geometry): nat {
    if InBounds(w, m, g) then 0 else 1
  }

  function Left(remainX: int, remainY: int, canImageScroll: bool): nat {
    4 * Abs(remainX) + (if canImageScroll then 2 else 0) + (if remainX != 0 || remainY != 0 then 1 else 0)
  }

  /** One pass of the `scrollInternal` loop with distance `(remainX, remainY)`
      left: the image's turn, an over-scroll against an edge, the offset engine
      (`engine`), or dropping the rest. Only the engine moves the window; in a
      canonical window in range it moves the viewport by `step`, taken from
      the horizontal distance. */
  method DragStep(q: Pager, g: Geometry, size: int, remainX: int, remainY: int,
                  canImageScroll: bool, calls: nat, image: ImageScroll)
    returns (q2: Pager, rx: int, ry: int, canImage: bool, calls2: nat, more: seq<Effect>, engine: bool, ghost step: int)
    requires ValidGeometry(g) && Absorbing(image)
    requires remainX != 0 || remainY != 0
    ensures q2.mode == q.mode && q2.views == q.views && q2.anims == q.anims && q2.scroller == q.scroller
    ensures q2.gesture.canScrollBetweenPages == q.gesture.canScrollBetweenPages
    ensures InBounds(q.window, q.mode, g) ==> InBounds(q2.window, q.mode, g)
    ensures Canonical(q.window, size) ==> Canonical(q2.window, size)
    ensures !engine ==> q2.window == q.window
    ensures engine ==> q.gesture.canScrollBetweenPages && remainX != 0
    ensures remainX == 0 ==> rx == 0 && !engine
    ensures Canonical(q.window, size) && InBounds(q.window, q.mode, g) ==>
      && Position(q2.window, q.mode, g) == Position(q.window, q.mode, g) + step
      && Abs(step) + Abs(rx) <= Abs(remainX)
    ensures Canonical(q.window, size) && InBounds(q.window, q.mode, g) && KeepsDirection(image) ==>
      Within(step, remainX) && Within(rx, remainX)
    ensures || Stage(q2.window, q.mode, g) < Stage(q.window, q.mode, g)
            || (Stage(q2.window, q.mode, g) == Stage(q.window, q.mode, g)
                && Left(rx, ry, canImage) < Left(remainX, remainY, canImageScroll))
  {
    var w, m := q.window, q.mode;
    q2, rx, ry, canImage, calls2, more, engine, step := q, 0, 0, canImageScroll, calls, [], false, 0;
    if w.offset == 0 && canImageScroll {
      rx, ry := ImageTurn(image, calls, remainX, remainY);
      calls2 := calls + 1;
      canImage := false;
      q2 := q.(gesture := q.gesture.(deltaX := 0, deltaY := 0));
    } else if OnEdge(w, m, remainX) {
      var s := OverScrollEdge(q, remainX, remainY);
      q2, more := s.pager, s.effects;
    } else if q.gesture.canScrollBetweenPages {
      var remain;
      q2, more, remain := BetweenPages(q, g, size, remainX);
      rx, ry, canImage, engine := remain, remainY, true, true;
      step := remainX - remain;
    } else {
      q2 := q.(gesture := q.gesture.(deltaX := 0, deltaY := 0));
    }
  }

  /** `scrollInternal` for a drag of `(dx, dy)`. On the first scroll of a
      gesture `horizontal` decides whether the drag may move between pages.
      While distance is left: an image at offset 0 that has not had its turn
      pans first; a drag against an edge becomes an over-scroll; a drag that
      may move between pages goes through the offset engine, after which the
      image gets another turn; otherwise the rest is dropped. A fill is
      requested once at the end if the offset engine ran.

      The window moves only through the offset engine: it stays in the clamp
      range, stays canonical, and does not move at all when the drag may not
      move between pages or has no horizontal part. From a canonical window in
      range, the viewport moves by at most `|dx|`, and in the direction of
      `dx` when the image never reverses a delta. */
  method ScrollInternal(p: Pager, g: Geometry, size: int, dx: int, dy: int,
                        firstScroll: bool, horizontal: bool, image: ImageScroll)
    returns (q: Pager, effects: seq<Effect>)
    requires ValidGeometry(g) && Absorbing(image)
    ensures p.window.current.Empty? ==> q == p && effects == []
    ensures q.mode == p.mode && q.views == p.views && q.anims == p.anims && q.scroller == p.scroller
    ensures p.window.current.Holds? ==>
      q.gesture.canScrollBetweenPages == if firstScroll then horizontal else p.gesture.canScrollBetweenPages
    ensures InBounds(p.window, p.mode, g) ==> InBounds(q.window, p.mode, g)
    ensures Canonical(p.window, size) ==> Canonical(q.window, size)
    ensures !q.gesture.canScrollBetweenPages ==> q.window == p.window
    ensures q.window.index != p.window.index ==> |effects| > 0 && effects[|effects| - 1] == RequestFill
    ensures dx == 0 ==> q.window == p.window
    ensures Canonical(p.window, size) && InBounds(p.window, p.mode, g) ==>
      Abs(Position(q.window, p.mode, g) - Position(p.window, p.mode, g)) <= Abs(dx)
    ensures Canonical(p.window, size) && InBounds(p.window, p.mode, g) && KeepsDirection(image) ==>
      Within(Position(q.window, p.mode, g) - Position(p.window, p.mode, g), dx)
  {
    if p.window.current.Empty? {
      return p, [];
    }
    var needFill;
    ghost var moved;
    q := if firstScroll then p.(gesture := p.gesture.(canScrollBetweenPages := horizontal)) else p;
    q, effects, needFill, moved := DragLoop(q, g, size, dx, dy, image);
    if needFill {
      effects := effects + [RequestFill];
    }
  }

  /** The loop of `scrollInternal`, from a pager `q0` with a current page:
      passes of `DragStep` until no distance is left. `needFill` records
      whether the offset engine ran; `moved` is how far the viewport moved. */
  method DragLoop(q0: Pager, g: Geometry, size: int, dx: int, dy: int, image: ImageScroll)
    returns (q: Pager, effects: seq<Effect>, needFill: bool, ghost moved: int)
    requires ValidGeometry(g) && Absorbing(image)
    ensures q.mode == q0.mode && q.views == q0.views && q.anims == q0.anims && q.scroller == q0.scroller
    ensures q.gesture.canScrollBetweenPages == q0.gesture.canScrollBetweenPages
    ensures InBounds(q0.window, q0.mode, g) ==> InBounds(q.window, q0.mode, g)
    ensures Canonical(q0.window, size) ==> Canonical(q.window, size)
    ensures !q0.gesture.canScrollBetweenPages ==> q.window == q0.window
    ensures q.window.index != q0.window.index ==> needFill
    ensures dx == 0 ==> q.window == q0.window
    ensures Canonical(q0.window, size) && InBounds(q0.window, q0.mode, g) ==>
      Position(q.window, q0.mode, g) == Position(q0.window, q0.mode, g) + moved && Abs(moved) <= Abs(dx)
    ensures Canonical(q0.window, size) && InBounds(q0.window, q0.mode, g) && KeepsDirection(image) ==>
      Within(moved, dx)
  {
    var m := q0.mode;
    var canImageScroll := true;
    var remainX, remainY := dx, dy;
    var calls: nat := 0;
    ghost var start := Position(q0.window, m, g);
    ghost var tracked := Canonical(q0.window, size) && InBounds(q0.window, m, g);
    q, effects, needFill, moved := q0, [], false, 0;
    while remainX != 0 || remainY != 0
      invariant q.mode == m && q.views == q0.views && q.anims == q0.anims && q.scroller == q0.scroller
      invariant q.gesture.canScrollBetweenPages == q0.gesture.canScrollBetweenPages
      invariant InBounds(q0.window, m, g) ==> InBounds(q.window, m, g)
      invariant Canonical(q0.window, size) ==> Canonical(q.window, size)
      invariant !q0.gesture.canScrollBetweenPages ==> q.window == q0.window
      invariant q.window.index != q0.window.index ==> needFill
      invariant dx == 0 ==> remainX == 0 && q.window == q0.window
      invariant tracked ==> Position(q.window, m, g) == start + moved
      invariant tracked ==> Abs(moved) + Abs(remainX) <= Abs(dx)
      invariant tracked && KeepsDirection(image) ==> Within(moved, dx) && Within(remainX, dx)
      decreases Stage(q.window, m, g), Left(remainX, remainY, canImageScroll)
    {
      var more, engine;
      ghost var step, r := 0, remainX;
      q, remainX, remainY, canImageScroll, calls, more, engine, step :=
        DragStep(q, g, size, remainX, remainY, canImageScroll, calls, image);
      if tracked {
        ComposeWithin(moved, r, step, remainX, dx);
      }
      moved := moved + step;
      effects := effects + more;
      needFill := needFill || engine;
    }
  }

  /** A drag that has moved by `moved` and has `r` left, both in its
      direction and together no more than it, stays in its direction when a
      step and a new remainder are taken from `r` in `r`'s direction. */
  lemma ComposeWithin(moved: int, r: int, step: int, rx: int, dx: int)
    requires Abs(moved) + Abs(r) <= Abs(dx) && Abs(step) + Abs(rx) <= Abs(r)
    ensures Abs(moved + step) + Abs(rx) <= Abs(dx)
    ensures Within(moved, dx) && Within(r, dx) && Within(step, r) && Within(rx, r) ==>
      Within(moved + step, dx) && Within(rx, dx)
  {
  }
}

=== FILE: fill.dfy ===
/** `onFill`: choose between the loading placeholder, the error placeholder
    and the pages; for the pages, clamp the index into the gallery, make sure
    the slots the index calls for hold views, and clamp the offset. */
module Fill {
  import opened PagerState
  import opened PageWindow
  import opened ModePolicy
  import opened OffsetEngine

  /** No slot holds a view. */
  predicate NoPages(w: Window) {
    w.previous.Empty? && w.current.Empty? && w.next.Empty?
  }

  /** The text the error placeholder shows: the host's empty-gallery text for
      size 0, otherwise the adapter's error or, lacking one, the host's
      default error text. */
  function ErrorText(size: int, error: Option<string>, emptyText: string, defaultText: string): (r: string)
    ensures size == 0 ==> r == emptyText
    ensures size != 0 && error.Some? ==> r == error.value
    ensures size != 0 && error.None? ==> r == defaultText
  {
    if size == 0 then emptyText else if error.None? then defaultText else error.value
  }

  /** What an "ensure page" step binds: the wanted page, if the slot is empty. */
  function Need(s: Slot, want: Slot): Slot {
    if s.Empty? then want else Empty
  }

  /** What an "ensure page" step releases: the slot's view, on the gallery's edge. */
  function Edge(s: Slot, edge: bool): Slot {
    if edge then s else Empty
  }

  /** One "ensure page" step of `onFill`: an empty slot gets a view bound to
      the page `want` names (if any); a held view is kept, and on the gallery's
      edge (`edge`) it is released while the field keeps pointing at it. */
  function EnsureSlot(s: Slot, want: Slot, edge: bool): (r: (Slot, seq<Effect>))
    ensures r.0 == (if s.Holds? then s else want)
    ensures Obtained(r.1) == SlotPages(Need(s, want))
    ensures Released(r.1) == SlotPages(Edge(s, edge))
  {
    if s.Empty? && want.Holds? then (want, Bind(want))
    else if s.Holds? && edge then (s, Drop(s))
    else (s, [])
  }

  /** The release of `onFill` that leaves the field set: a view kept in the
      previous slot at the first page, or in the next slot at the last page. */
  predicate StaleEdge(w: Window, size: int) {
    (w.index == 0 && w.previous.Holds?) || (w.index == size - 1 && w.next.Holds?)
  }

  /** The "ensure pages" part of `onFill` for an index inside the gallery:
      every held view stays where it is, every empty slot the index calls for
      gets a view bound to the canonical page, and views on a missing side are
      released (but, as written, not removed from their slot). */
  function EnsurePages(w: Window, size: int): (r: Shift)
    requires 0 <= w.index < size
    ensures r.window.index == w.index && r.window.offset == w.offset
    ensures r.window.current == (if w.current.Holds? then w.current else Holds(w.index))
    ensures r.window.previous == (if w.previous.Holds? then w.previous else Expected(w.index - 1, size))
    ensures r.window.next == (if w.next.Holds? then w.next else Expected(w.index + 1, size))
  {
    var c := EnsureSlot(w.current, Holds(w.index), false);
    var pr := EnsureSlot(w.previous, Expected(w.index - 1, size), w.index == 0);
    var nx := EnsureSlot(w.next, Expected(w.index + 1, size), w.index == size - 1);
    Shift(w.(current := c.0, previous := pr.0, next := nx.0), c.1 + pr.1 + nx.1)
  }

  /** The views "ensure pages" obtains: one for each empty slot the index
      calls for. */
  function Missing(w: Window, size: int): multiset<int> {
    SlotPages(Need(w.current, Holds(w.index)))
    + SlotPages(Need(w.previous, Expected(w.index - 1, size)))
    + SlotPages(Need(w.next, Expected(w.index + 1, size)))
  }

  /** The views "ensure pages" releases: those on a side the gallery lacks. */
  function Stale(w: Window, size: int): multiset<int> {
    SlotPages(Edge(w.previous, w.index == 0)) + SlotPages(Edge(w.next, w.index == size - 1))
  }

  /** The three "ensure page" steps' effects, in the order they run. */
  lemma EnsurePagesEffects(w: Window, size: int)
    requires 0 <= w.index < size
    ensures EnsurePages(w, size).effects
         == EnsureSlot(w.current, Holds(w.index), false).1
          + EnsureSlot(w.previous, Expected(w.index - 1, size), w.index == 0).1
          + EnsureSlot(w.next, Expected(w.index + 1, size), w.index == size - 1).1
  {
  }

  /** Three "ensure page" steps obtain what each slot needs. */
  lemma SlotsObtain(s1: Slot, w1: Slot, e1: bool, s2: Slot, w2: Slot, e2: bool, s3: Slot, w3: Slot, e3: bool)
    ensures Obtained(EnsureSlot(s1, w1, e1).1 + EnsureSlot(s2, w2, e2).1 + EnsureSlot(s3, w3, e3).1)
         == SlotPages(Need(s1, w1)) + SlotPages(Need(s2, w2)) + SlotPages(Need(s3, w3))
  {
    AccountingSum(EnsureSlot(s1, w1, e1).1, EnsureSlot(s2, w2, e2).1, EnsureSlot(s3, w3, e3).1);
  }

  /** Three "ensure page" steps, the first off the edge, release the edge views. */
  lemma SlotsRelease(s1: Slot, w1: Slot, s2: Slot, w2: Slot, e2: bool, s3: Slot, w3: Slot, e3: bool)
    ensures Released(EnsureSlot(s1, w1, false).1 + EnsureSlot(s2, w2, e2).1 + EnsureSlot(s3, w3, e3).1)
         == SlotPages(Edge(s2, e2)) + SlotPages(Edge(s3, e3))
  {
    AccountingSum(EnsureSlot(s1, w1, false).1, EnsureSlot(s2, w2, e2).1, EnsureSlot(s3, w3, e3).1);
    assert Released(EnsureSlot(s1, w1, false).1) == multiset{};
  }

  /** The sum of the three slots' needs, in the order "ensure pages" fills them (an unfolding helper). */
  lemma MissingBySlot(w: Window, size: int)
    ensures Missing(w, size) == SlotPages(Need(w.current, Holds(w.index)))
      + SlotPages(Need(w.previous, Expected(w.index - 1, size))) + SlotPages(Need(w.next, Expected(w.index + 1, size)))
  {
    var a, b, c := Need(w.current, Holds(w.index)), Need(w.previous, Expected(w.index - 1, size)), Need(w.next, Expected(w.index + 1, size));
    assert Missing(w, size) == SlotPages(a) + SlotPages(b) + SlotPages(c);
  }

  // Unfolding helper: states one definitional equality on its own.
  lemma StaleBySlot(w: Window, size: int)
    ensures Stale(w, size) == SlotPages(Edge(w.previous, w.index == 0)) + SlotPages(Edge(w.next, w.index == size - 1))
  {
  }

  lemma EnsurePagesObtainsBySlot(w: Window, size: int)
    requires 0 <= w.index < size
    ensures Obtained(EnsurePages(w, size).effects) == SlotPages(Need(w.current, Holds(w.index)))
      + SlotPages(Need(w.previous, Expected(w.index - 1, size))) + SlotPages(Need(w.next, Expected(w.index + 1, size)))
  {
    EnsurePagesEffects(w, size);
    SlotsObtain(w.current, Holds(w.index), false,
      w.previous, Expected(w.index - 1, size), w.index == 0,
      w.next, Expected(w.index + 1, size), w.index == size - 1);
  }

  lemma EnsurePagesReleasesBySlot(w: Window, size: int)
    requires 0 <= w.index < size
    ensures Released(EnsurePages(w, size).effects)
         == SlotPages(Edge(w.previous, w.index == 0)) + SlotPages(Edge(w.next, w.index == size - 1))
  {
    EnsurePagesEffects(w, size);
    SlotsRelease(w.current, Holds(w.index),
      w.previous, Expected(w.index - 1, size), w.index == 0,
      w.next, Expected(w.index + 1, size), w.index == size - 1);
  }

  lemma EnsurePagesObtains(w: Window, size: int)
    requires 0 <= w.index < size
    ensures Obtained(EnsurePages(w, size).effects) == Missing(w, size)
  {
    EnsurePagesObtainsBySlot(w, size);
    MissingBySlot(w, size);
  }

  lemma EnsurePagesReleases(w: Window, size: int)
    requires 0 <= w.index < size
    ensures Released(EnsurePages(w, size).effects) == Stale(w, size)
  {
    EnsurePagesReleasesBySlot(w, size);
    StaleBySlot(w, size);
  }

  /** A kept-or-filled slot holds what it held plus what was filled in. */
  lemma KeepOrFill(s: Slot, want: Slot)
    ensures SlotPages(if s.Holds? then s else want) == SlotPages(s) + SlotPages(Need(s, want))
  {
  }

  /** "Ensure pages" never drops a view from a slot: the slots afterwards hold
      what they held plus what was obtained. */
  lemma EnsurePagesHeld(w: Window, size: int)
    requires 0 <= w.index < size
    ensures Held(EnsurePages(w, size).window) == Held(w) + Obtained(EnsurePages(w, size).effects)
  {
    var np, nc, nn := Need(w.previous, Expected(w.index - 1, size)), Need(w.current, Holds(w.index)),
      Need(w.next, Expected(w.index + 1, size));
    EnsurePagesObtainsBySlot(w, size);
    HeldAfterBySlot(w, size);
    Regroup(SlotPages(w.previous), SlotPages(w.current), SlotPages(w.next), SlotPages(np), SlotPages(nc), SlotPages(nn));
  }

  lemma HeldAfterBySlot(w: Window, size: int)
    requires 0 <= w.index < size
    ensures Held(EnsurePages(w, size).window)
         == (SlotPages(w.previous) + SlotPages(Need(w.previous, Expected(w.index - 1, size))))
          + (SlotPages(w.current) + SlotPages(Need(w.current, Holds(w.index))))
          + (SlotPages(w.next) + SlotPages(Need(w.next, Expected(w.index + 1, size))))
  {
    KeepOrFill(w.previous, Expected(w.index - 1, size));
    KeepOrFill(w.current, Holds(w.index));
    KeepOrFill(w.next, Expected(w.index + 1, size));
  }

  // Unfolding helper: regroups a sum of six multisets slot by slot.
  lemma Regroup(a: multiset<int>, b: multiset<int>, c: multiset<int>, x: multiset<int>, y: multiset<int>, z: multiset<int>)
    ensures (a + x) + (b + y) + (c + z) == a + b + c + (y + x + z)
  {
  }

  /** The accounting law holds for "ensure pages" exactly when it does not hit
      the stale-edge release: otherwise a released view is still held. */
  lemma EnsurePagesAccounting(w: Window, size: int)
    requires 0 <= w.index < size
    ensures Accounted(w, EnsurePages(w, size)) <==> !StaleEdge(w, size)
  {
    var r := EnsurePages(w, size);
    EnsurePagesReleases(w, size);
    EnsurePagesHeld(w, size);
    var rel := Released(r.effects);
    assert |Held(r.window) + rel| == |Held(w) + Obtained(r.effects)| + |rel|;
    if StaleEdge(w, size) {
      assert |rel| > 0;
    }
  }

  /** The index clamp of `onFill`: an index outside the gallery is moved to
      its nearest end and every view is dropped; an index inside is left alone. */
  function ClampIndex(w: Window, size: int): (r: Shift)
    requires size >= 1
    ensures r.window.index == Clamp(w.index, 0, size - 1)
    ensures 0 <= w.index < size ==> r == Shift(w, [])
    ensures !(0 <= w.index < size) ==>
      && NoPages(r.window) && r.window.offset == w.offset
      && Released(r.effects) == Held(w) && Obtained(r.effects) == multiset{}
  {
    var i := if w.index < 0 then 0 else if w.index >= size then size - 1 else w.index;
    if i != w.index then RemoveAllPages(w.(index := i)) else Shift(w, [])
  }

  /** The offset clamp of `onFill`: the offset is moved into the range the
      window's neighbours allow, and kept when it already lies there. */
  function ClampOffset(u: Window, m: Mode, g: Geometry): (r: Window)
    ensures r.(offset := u.offset) == u
    ensures ValidGeometry(g) ==> InBounds(r, m, g)
    ensures MinOffset(u, m, g) <= u.offset <= MaxOffset(u, m, g) ==> r.offset == u.offset
    ensures u.offset < MinOffset(u, m, g) ==> r.offset == MinOffset(u, m, g)
    ensures ValidGeometry(g) && u.offset > MaxOffset(u, m, g) ==> r.offset == MaxOffset(u, m, g)
  {
    u.(offset := Clamp(u.offset, MinOffset(u, m, g), MaxOffset(u, m, g)))
  }

  /** The window part of the content branch of `onFill` (the adapter reports
      `size >= 1` pages): clamp the index, ensure the slots it calls for, clamp
      the offset. */
  function FillWindow(w: Window, m: Mode, g: Geometry, size: int): (r: Shift)
    requires size >= 1
    ensures r.window.index == Clamp(w.index, 0, size - 1)
    ensures r.window.current.Holds?
    ensures ValidGeometry(g) ==> InBounds(r.window, m, g)
    ensures MinOffset(r.window, m, g) <= w.offset <= MaxOffset(r.window, m, g) ==> r.window.offset == w.offset
    ensures w.offset < MinOffset(r.window, m, g) ==> r.window.offset == MinOffset(r.window, m, g)
    ensures ValidGeometry(g) && w.offset > MaxOffset(r.window, m, g) ==> r.window.offset == MaxOffset(r.window, m, g)
  {
    var c := ClampIndex(w, size);
    var e := EnsurePages(c.window, size);
    Shift(ClampOffset(e.window, m, g), c.effects + e.effects)
  }

  /** A window whose index lies outside the gallery is rebuilt from scratch:
      every view it held is released and the result is canonical, holding
      exactly the views obtained. */
  lemma FillRebuildsClamped(w: Window, m: Mode, g: Geometry, size: int)
    requires size >= 1 && !(0 <= w.index < size)
    ensures var r := FillWindow(w, m, g, size);
      && Canonical(r.window, size)
      && Released(r.effects) == Held(w) && Obtained(r.effects) == Held(r.window)
  {
    var c := ClampIndex(w, size);
    var e := EnsurePages(c.window, size);
    var r := FillWindow(w, m, g, size);
    assert r.window.(offset := e.window.offset) == e.window;
    assert Canonical(r.window, size);
    AccountingConcat(c.effects, e.effects);
    EnsurePagesReleases(c.window, size);
    EnsurePagesHeld(c.window, size);
    assert Held(c.window) == multiset{};
    assert Released(e.effects) == multiset{};
    assert Held(r.window) == Held(e.window);
  }

  /** The placeholders `onFill` hides before showing pages. */
  function HidePlaceholders(p: Pager): (r: Step)
    ensures !r.pager.views.progress && !r.pager.views.errorView
    ensures r.pager.window == p.window && r.pager.mode == p.mode
    ensures r.pager.anims == p.anims && r.pager.scroller == p.scroller
    ensures Released(r.effects) == multiset{} && Obtained(r.effects) == multiset{}
  {
    var s1 := RemoveProgress(p);
    var s2 := RemoveErrorView(s1.pager);
    AccountingConcat(s1.effects, s2.effects);
    Step(s2.pager, s1.effects + s2.effects)
  }

  /** The content branch of `onFill`. */
  function FillPages(p: Pager, g: Geometry, size: int): (r: Step)
    requires size >= 1
    ensures !r.pager.views.progress && !r.pager.views.errorView && r.pager.window.current.Holds?
    ensures r.pager.mode == p.mode && r.pager.anims == p.anims && r.pager.scroller == p.scroller
    ensures var h := HidePlaceholders(p); var f := FillWindow(p.window, p.mode, g, size);
      r == Step(h.pager.(window := f.window), h.effects + f.effects)
  {
    var h := HidePlaceholders(p);
    var f := FillWindow(h.pager.window, h.pager.mode, g, size);
    Step(h.pager.(window := f.window), h.effects + f.effects)
  }

  /** The loading branch of `onFill`: hide the error placeholder, drop every
      page, and show the progress placeholder unless it is already shown. */
  function ShowLoading(p: Pager): (r: Step)
    ensures r.pager.views.progress && !r.pager.views.errorView && NoPages(r.pager.window)
    ensures r.pager.window.index == p.window.index && r.pager.window.offset == p.window.offset
    ensures r.pager.mode == p.mode && r.pager.anims == p.anims && r.pager.scroller == p.scroller
    ensures ShowProgress in r.effects <==> !p.views.progress
  {
    var s1 := RemoveErrorView(p);
    var s2 := RemoveAllPages(s1.pager.window);
    var shown := if s1.pager.views.progress then [] else [ShowProgress];
    RemoveAllPagesOnlyReleases(s1.pager.window);
    assert ShowProgress !in s1.effects + s2.effects;
    Step(s1.pager.(window := s2.window, views := s1.pager.views.(progress := true)), s1.effects + s2.effects + shown)
  }

  /** "Ensure error view" and "update error string": show the error
      placeholder unless it is shown, and bind `text` to it only when it
      differs from the text it shows. No page view is touched. */
  function EnsureErrorView(p: Pager, text: string): (r: Step)
    ensures r.pager == p.(views := p.views.(errorView := true, errorStr := Some(text)))
    ensures ShowError in r.effects <==> !p.views.errorView
    ensures BindError(text) in r.effects <==> p.views.errorStr != Some(text)
    ensures Released(r.effects) == multiset{} && Obtained(r.effects) == multiset{}
  {
    var shown := if p.views.errorView then [] else [ShowError];
    var bound := if p.views.errorStr == Some(text) then [] else [BindError(text)];
    AccountingConcat(shown, bound);
    Step(p.(views := p.views.(errorView := true, errorStr := Some(text))), shown + bound)
  }

  /** The error branch of `onFill`: hide the progress placeholder, drop every
      page, then ensure the error placeholder shows `text`. */
  function ShowFailure(p: Pager, text: string): (r: Step)
    ensures !r.pager.views.progress && r.pager.views.errorView && NoPages(r.pager.window)
    ensures r.pager.views.errorStr == Some(text)
    ensures r.pager.window.index == p.window.index && r.pager.window.offset == p.window.offset
    ensures r.pager.mode == p.mode && r.pager.anims == p.anims && r.pager.scroller == p.scroller
    ensures ShowError in r.effects <==> !p.views.errorView
    ensures BindError(text) in r.effects <==> p.views.errorStr != Some(text)
  {
    var s1 := RemoveProgress(p);
    var s2 := RemoveAllPages(s1.pager.window);
    var s3 := EnsureErrorView(s1.pager.(window := s2.window), text);
    var pre := s1.effects + s2.effects;
    RemoveAllPagesOnlyReleases(s1.pager.window);
    Step(s3.pager, pre + s3.effects)
  }

  /** `onFill`: the loading placeholder while the adapter reports that it is
      loading; the error placeholder, with the empty-gallery text or the error
      text, for an empty or failed gallery; the pages otherwise. */
  function Fill(p: Pager, g: Geometry, size: int, error: Option<string>, emptyText: string, defaultText: string)
    : (r: Step)
    ensures r.pager.mode == p.mode && r.pager.anims == p.anims && r.pager.scroller == p.scroller
    ensures size == StateWait ==> r.pager.views.progress && !r.pager.views.errorView && NoPages(r.pager.window)
    ensures size != StateWait && (size <= StateError || size == 0) ==>
      && !r.pager.views.progress && r.pager.views.errorView && NoPages(r.pager.window)
      && r.pager.views.errorStr == Some(ErrorText(size, error, emptyText, defaultText))
    ensures size >= 1 ==> !r.pager.views.progress && !r.pager.views.errorView && r.pager.window.current.Holds?
    ensures size >= 1 ==> r.pager.window == FillWindow(p.window, p.mode, g, size).window
    ensures size < 1 ==> r.pager.window.index == p.window.index && r.pager.window.offset == p.window.offset
    ensures size < 1 ==> Released(r.effects) == Held(p.window) && Obtained(r.effects) == multiset{}
    ensures size >= 1 ==> r.effects == HidePlaceholders(p).effects + FillWindow(p.window, p.mode, g, size).effects
  {
    if size == StateWait then
      LoadingReleasesAll(p);
      ShowLoading(p)
    else if size <= StateError || size == 0 then
      var text := ErrorText(size, error, emptyText, defaultText);
      FailureReleasesAll(p, text);
      ShowFailure(p, text)
    else FillPages(p, g, size)
  }

  /** Every view the window holds sits where the canonical window around its
      index would put it (some may be missing). */
  predicate Agrees(w: Window, size: int) {
    && (w.current.Holds? ==> w.current == Holds(w.index))
    && (w.previous.Holds? ==> w.previous == Expected(w.index - 1, size))
    && (w.next.Holds? ==> w.next == Expected(w.index + 1, size))
  }

  /** For an index inside the gallery, filling is "ensure pages" followed by
      the offset clamp. */
  lemma FillInRange(w: Window, m: Mode, g: Geometry, size: int)
    requires 0 <= w.index < size
    ensures var r := FillWindow(w, m, g, size); var e := EnsurePages(w, size);
      && r.window == e.window.(offset := r.window.offset)
      && r.effects == e.effects
  {
    var e := EnsurePages(w, size);
    assert [] + e.effects == e.effects;
  }

  /** Filling a window whose index lies in the gallery and whose views all sit
      where they belong completes it to the canonical window. */
  lemma FillCompletes(w: Window, m: Mode, g: Geometry, size: int)
    requires 0 <= w.index < size && Agrees(w, size)
    ensures Canonical(FillWindow(w, m, g, size).window, size)
  {
    EnsureCompletes(w, size);
    FillInRange(w, m, g, size);
    CanonicalIgnoresOffset(EnsurePages(w, size).window, FillWindow(w, m, g, size).window.offset, size);
  }

  // Unfolding helper: states one definitional equality on its own.
  lemma CanonicalIgnoresOffset(w: Window, offset: int, size: int)
    ensures Canonical(w.(offset := offset), size) == Canonical(w, size)
  {
  }

  /** "Ensure pages" alone completes such a window. */
  lemma EnsureCompletes(w: Window, size: int)
    requires 0 <= w.index < size && Agrees(w, size)
    ensures Canonical(EnsurePages(w, size).window, size)
  {
    var e := EnsurePages(w, size);
    assert e.window.current == Holds(w.index);
    assert e.window.previous == Expected(w.index - 1, size);
    assert e.window.next == Expected(w.index + 1, size);
  }

  /** ... and it keeps every view the window held, obtains only the missing
      ones and releases none. */
  lemma FillCompletesAccounting(w: Window, m: Mode, g: Geometry, size: int)
    requires 0 <= w.index < size && Agrees(w, size)
    ensures var r := FillWindow(w, m, g, size);
      && Released(r.effects) == multiset{}
      && Obtained(r.effects) == Missing(w, size)
      && Held(r.window) == Held(w) + Missing(w, size)
  {
    FillInRange(w, m, g, size);
    EnsurePagesReleases(w, size);
    EnsurePagesObtains(w, size);
    EnsurePagesHeld(w, size);
    NoStaleWhenAgrees(w, size);
    HeldIgnoresOffset(EnsurePages(w, size).window, FillWindow(w, m, g, size).window.offset);
  }

  lemma NoStaleWhenAgrees(w: Window, size: int)
    requires 0 <= w.index < size && Agrees(w, size)
    ensures Stale(w, size) == multiset{}
  {
    StaleBySlot(w, size);
  }

  // Unfolding helper: states one definitional equality on its own.
  lemma HeldIgnoresOffset(w: Window, offset: int)
    ensures Held(w.(offset := offset)) == Held(w)
  {
  }

  /** A canonical window inside the offset range is a fixed point of filling:
      nothing changes and no host call is made. */
  lemma FillFixesCanonical(w: Window, m: Mode, g: Geometry, size: int)
    requires Canonical(w, size) && InBounds(w, m, g)
    ensures FillWindow(w, m, g, size) == Shift(w, [])
  {
    var e := EnsurePages(w, size);
    assert e.window == w;
    assert e.effects == [];
  }

  /** Filling is idempotent on windows it completes: a second fill changes
      nothing and makes no host call. */
  lemma FillIdempotent(w: Window, m: Mode, g: Geometry, size: int)
    requires ValidGeometry(g) && size >= 1 && (!(0 <= w.index < size) || Agrees(w, size))
    ensures var r := FillWindow(w, m, g, size);
      FillWindow(r.window, m, g, size) == Shift(r.window, [])
  {
    var r := FillWindow(w, m, g, size);
    if 0 <= w.index < size {
      FillCompletes(w, m, g, size);
    } else {
      FillRebuildsClamped(w, m, g, size);
    }
    FillFixesCanonical(r.window, m, g, size);
  }

  /** The stale-edge release as written: at the first page a view left in the
      previous slot (or at the last page one left in the next slot) is
      released, but the slot keeps it, so the window is still stale and the
      accounting law fails. */
  lemma FillKeepsStaleView(w: Window, m: Mode, g: Geometry, size: int)
    requires 0 <= w.index < size && StaleEdge(w, size)
    ensures var r := FillWindow(w, m, g, size);
      && StaleEdge(r.window, size)
      && Stale(r.window, size) == Stale(w, size)
      && Released(r.effects) == Stale(w, size) != multiset{}
      && !Accounted(w, r)
  {
    FillInRange(w, m, g, size);
    EnsurePagesAccounting(w, size);
    EnsurePagesReleases(w, size);
  }

  /** ... and every later fill releases the same views once more. */
  lemma FillRepeatsStaleRelease(w: Window, m: Mode, g: Geometry, size: int)
    requires 0 <= w.index < size && StaleEdge(w, size)
    ensures var r := FillWindow(w, m, g, size);
      Released(FillWindow(r.window, m, g, size).effects) == Released(r.effects)
  {
    var r := FillWindow(w, m, g, size);
    FillKeepsStaleView(w, m, g, size);
    FillInRange(r.window, m, g, size);
    EnsurePagesReleases(r.window, size);
  }

  /** A gallery that shrinks under a canonical window leaves a stale view: the
      window around page 1 of three holds page 2 in its next slot; once the
      adapter reports two pages, filling releases page 2 yet keeps it as the
      next page, beyond the end of the gallery. */
  lemma ShrinkLeavesStaleView(m: Mode, g: Geometry)
    ensures var w := Window(1, 0, Holds(0), Holds(1), Holds(2));
      && Canonical(w, 3)
      && FillWindow(w, m, g, 2).window.next == Holds(2)
      && FillWindow(w, m, g, 2).effects == [Release(2)]
  {
    var w := Window(1, 0, Holds(0), Holds(1), Holds(2));
    var e := EnsurePages(w, 2);
    assert e.effects == [Release(2)];
  }

  /** The loading placeholder drops every page view the window held and
      obtains none. */
  lemma LoadingReleasesAll(p: Pager)
    ensures Released(ShowLoading(p).effects) == Held(p.window)
    ensures Obtained(ShowLoading(p).effects) == multiset{}
  {
    var a1 := RemoveErrorView(p);
    var a2 := RemoveAllPages(a1.pager.window);
    var sp := if a1.pager.views.progress then [] else [ShowProgress];
    assert ShowLoading(p).effects == a1.effects + a2.effects + sp;
    QuietAccounting(a1.effects);
    QuietAccounting(sp);
    AccountingSum(a1.effects, a2.effects, sp);
  }

  /** So does the error placeholder. */
  lemma FailureReleasesAll(p: Pager, text: string)
    ensures Released(ShowFailure(p, text).effects) == Held(p.window)
    ensures Obtained(ShowFailure(p, text).effects) == multiset{}
  {
    var s1 := RemoveProgress(p);
    var s2 := RemoveAllPages(s1.pager.window);
    var s3 := EnsureErrorView(s1.pager.(window := s2.window), text);
    assert ShowFailure(p, text).effects == s1.effects + s2.effects + s3.effects;
    QuietAccounting(s1.effects);
    AccountingSum(s1.effects, s2.effects, s3.effects);
  }

  /** A placeholder, once shown, stays put: filling again in the same adapter
      state changes nothing and makes no host call. */
  lemma PlaceholdersSettle(p: Pager, text: string)
    ensures var q := ShowLoading(p).pager; ShowLoading(q) == Step(q, [])
    ensures var q := ShowFailure(p, text).pager; ShowFailure(q, text) == Step(q, [])
  {
  }

  /** On the pager, filling pages is idempotent whenever it completes the
      window: the second fill finds both placeholders hidden and the window
      canonical and in range, and makes no host call. */
  lemma FillPagesSettles(p: Pager, g: Geometry, size: int)
    requires ValidGeometry(g) && size >= 1 && (!(0 <= p.window.index < size) || Agrees(p.window, size))
    ensures var q := FillPages(p, g, size).pager; FillPages(q, g, size) == Step(q, [])
  {
    var q := FillPages(p, g, size).pager;
    FillIdempotent(p.window, p.mode, g, size);
    assert FillWindow(q.window, q.mode, g, size) == Shift(q.window, []);
    assert HidePlaceholders(q) == Step(q, []);
  }
}

=== FILE: gestures.dfy ===
/** The gesture entry points of the pager: touch down and up, taps, double
    taps, flings and drags. */
module Gestures {
  import opened PagerState
  import opened ModePolicy
  import opened OffsetEngine
  import opened SmoothScroll
  import opened AnimationRules

  /** `onDown`: clear the edge deltas and stop every animation, remembering
      whether that stopped one. */
  function OnDown(p: Pager): (r: Pager)
    ensures r.gesture.deltaX == 0 && r.gesture.deltaY == 0 && r.anims == Stopped
    ensures r.gesture.stopAnimationFinger == CancelAllAnimations(p.anims).0
    ensures r.window == p.window && r.mode == p.mode && r.views == p.views
    ensures r.gesture.canScrollBetweenPages == p.gesture.canScrollBetweenPages
  {
    var c := CancelAllAnimations(p.anims);
    p.(gesture := p.gesture.(deltaX := 0, deltaY := 0, stopAnimationFinger := c.0), anims := c.1)
  }

  /** `isTapOrPressEnable`: taps and long presses count unless the touch
      that started them stopped an animation. */
  function IsTapOrPressEnable(p: Pager): (r: bool)
    ensures r <==> !p.gesture.stopAnimationFinger
  {
    !p.gesture.stopAnimationFinger
  }

  /** A touch that stops a smooth scroll or a fling swallows the tap; one that
      stops only a smooth scale does not, because the scale is never asked. */
  lemma TapAfterDown(p: Pager)
    ensures IsTapOrPressEnable(OnDown(p)) <==> !p.anims.scroller && !p.anims.fling
    ensures !AnyRunning(p.anims) ==> IsTapOrPressEnable(OnDown(p))
    ensures p.anims == Animations(false, false, true) ==> IsTapOrPressEnable(OnDown(p))
  {
  }

  // ---------------------------------------------------------------------------
  // Touch up: settle to a page.

  /** The distance `onUp` scrolls to settle: onto the left page once the
      offset reaches one page gap towards it, onto the right page likewise,
      and back onto the current page otherwise. */
  function SettleDistance(w: Window, m: Mode, g: Geometry): (r: int)
    ensures SnapsLeft(w, m, g) ==> r == w.offset - Span(g)
    ensures SnapsRight(w, m, g) ==> r == w.offset + Span(g)
    ensures !SnapsLeft(w, m, g) && !SnapsRight(w, m, g) ==> r == w.offset
  {
    if w.offset >= g.interval && LeftPage(w, m).Holds? then w.offset - g.width - g.interval
    else if w.offset <= -g.interval && RightPage(w, m).Holds? then w.offset + g.width + g.interval
    else w.offset
  }

  /** Dragged past one gap towards the left page, which exists. */
  predicate SnapsLeft(w: Window, m: Mode, g: Geometry) {
    w.offset >= g.interval && LeftPage(w, m).Holds?
  }

  /** Dragged past one gap towards the right page, which exists (and not
      snapping left). */
  predicate SnapsRight(w: Window, m: Mode, g: Geometry) {
    !SnapsLeft(w, m, g) && w.offset <= -g.interval && RightPage(w, m).Holds?
  }

  /** The settle distance, fed through the offset engine, lands exactly on a
      page: nothing is left over, the offset comes to rest, the window stays
      canonical, and the page is the left one, the right one or the current
      one as the snap rule says. */
  lemma SettleLandsOnPage(w: Window, m: Mode, g: Geometry, size: int)
    requires ValidGeometry(g) && Canonical(w, size) && InBounds(w, m, g) && w.offset != 0
    ensures var s := ScrollBetweenPages(w, m, g, size, SettleDistance(w, m, g));
      && s.remain == 0 && s.window.offset == 0 && Canonical(s.window, size)
      && (SnapsLeft(w, m, g) ==> s.window.index == w.index - RightStep(m))
      && (SnapsRight(w, m, g) ==> s.window.index == w.index + RightStep(m))
      && (!SnapsLeft(w, m, g) && !SnapsRight(w, m, g) ==> s.window.index == w.index)
  {
    var d := SettleDistance(w, m, g);
    ScrollConservesPosition(w, m, g, size, d);
    PageTowardsExistingSide(w, m, size);
  }

  /** `onUp`: release the edge glows; if a page is shown off its resting
      place, start the smooth scroller over the settle distance. */
  function OnUp(p: Pager, g: Geometry): (r: Step)
    ensures r.effects == [EdgeRelease]
    ensures r.pager.window == p.window
    ensures p.window.current.Empty? || p.window.offset == 0 ==> r.pager == p
    ensures p.window.current.Holds? && p.window.offset != 0 ==>
      && r.pager.anims.scroller && r.pager.scroller == Scroller(SettleDistance(p.window, p.mode, g), 0, 0, 0)
      && r.pager.anims.fling == p.anims.fling && r.pager.anims.scaler == p.anims.scaler
      && r.pager == p.(anims := r.pager.anims, scroller := r.pager.scroller)
  {
    if p.window.current.Empty? || p.window.offset == 0 then Step(p, [EdgeRelease])
    else Step(StartSmoothScroll(p, SettleDistance(p.window, p.mode, g), 0), [EdgeRelease])
  }

  // ---------------------------------------------------------------------------
  // Double tap and fling.

  /** `onDoubleTapConfirmed`: with a loaded current page, start the smooth
      scaler from the image's scale to the next default level. `loaded`, the
      image's levels and its scale are what the image view reports. */
  method OnDoubleTapConfirmed(p: Pager, loaded: bool, scales: seq<real>, scale: real)
    returns (q: Pager, target: Option<real>)
    requires |scales| > 0
    ensures target.Some? <==> p.window.current.Holds? && loaded
    ensures target.None? ==> q == p
    ensures target.Some? ==> target.value == ScaleTarget(scales, scale) && target.value in scales
    ensures target.Some? ==> q == p.(anims := p.anims.(scaler := true))
  {
    if p.window.current.Empty? || !loaded {
      return p, None;
    }
    var endScale := NextScale(scales, scale);
    q := p.(anims := p.anims.(scaler := true));
    target := Some(endScale);
  }

  /** What `PageFling.startFling` is given: the spline distance and duration
      on each axis and the image's scroll range. */
  datatype FlingInput = FlingInput(dx: int, durationX: int, minX: int, maxX: int,
                                   dy: int, durationY: int, minY: int, maxY: int)

  /** `onFling`: a fling starts only on a loaded, flingable current page
      resting at offset 0, and only when its clamped distance is non-zero. */
  function OnFling(p: Pager, loaded: bool, canFling: bool, f: FlingInput,
                   adjust: (int, int, int, int) -> int): (r: (Pager, FlingPlan))
    ensures r.1.Fling? ==> p.window.current.Holds? && p.window.offset == 0 && loaded && canFling
    ensures r.0.anims.fling <==> r.1.Fling? || p.anims.fling
    ensures r.0 == p.(anims := r.0.anims)
    ensures r.0.anims.scroller == p.anims.scroller && r.0.anims.scaler == p.anims.scaler
    ensures p.window.current.Holds? && p.window.offset == 0 && loaded && canFling ==>
      r.1 == PlanFling(f.dx, f.minX, f.maxX, f.durationX, f.dy, f.minY, f.maxY, f.durationY, adjust)
  {
    if p.window.current.Empty? || p.window.offset != 0 || !loaded || !canFling then (p, NoFling)
    else
      var plan := PlanFling(f.dx, f.minX, f.maxX, f.durationX, f.dy, f.minY, f.maxY, f.durationY, adjust);
      if plan.NoFling? then (p, plan) else (p.(anims := p.anims.(fling := true)), plan)
  }
}

=== FILE: mode_policy.dfy ===
/** The reading-mode policy: which slot is drawn on the left and which on the
    right, and which window shift a "page left" or "page right" command means. */
module ModePolicy {
  import opened PagerState
  import opened PageWindow

  /** The index step from the current page to the page drawn on its right: the
      next page when reading left to right, the previous one right to left. */
  function RightStep(m: Mode): int {
    if m == LeftToRight then 1 else -1
  }

  /** `getLeftPage`: the slot one step against the reading direction. */
  function LeftPage(w: Window, m: Mode): (r: Slot)
    ensures RightStep(m) == 1 ==> r == w.previous
    ensures RightStep(m) == -1 ==> r == w.next
  {
    if m == LeftToRight then w.previous else w.next
  }

  /** `getRightPage`: the slot one step along the reading direction. */
  function RightPage(w: Window, m: Mode): (r: Slot)
    ensures RightStep(m) == 1 ==> r == w.next
    ensures RightStep(m) == -1 ==> r == w.previous
  {
    if m == LeftToRight then w.next else w.previous
  }

  /** In a canonical window the left slot holds the page one step against the
      reading direction and the right slot the page one step along it, in
      either mode. */
  lemma CanonicalSides(w: Window, m: Mode, size: int)
    requires Canonical(w, size)
    ensures LeftPage(w, m) == Expected(w.index - RightStep(m), size)
    ensures RightPage(w, m) == Expected(w.index + RightStep(m), size)
  {
  }

  /** `pageLeft`: shift the window towards the page drawn on the left. When the
      shift happens, the old left page becomes current and the old current page
      is now drawn on the right; otherwise nothing changes. */
  function PageLeft(w: Window, m: Mode, size: int): (r: Shift)
    ensures r.window.index == w.index ==> r == Shift(w, [])
    ensures r.window.index != w.index ==>
      && r.window.index == w.index - RightStep(m)
      && r.window.current == LeftPage(w, m)
      && RightPage(r.window, m) == w.current
    ensures r.window.offset == w.offset
  {
    if m == LeftToRight then PagePrevious(w) else PageNext(w, size)
  }

  /** `pageRight`: shift the window towards the page drawn on the right. */
  function PageRight(w: Window, m: Mode, size: int): (r: Shift)
    ensures r.window.index == w.index ==> r == Shift(w, [])
    ensures r.window.index != w.index ==>
      && r.window.index == w.index + RightStep(m)
      && r.window.current == RightPage(w, m)
      && LeftPage(r.window, m) == w.current
    ensures r.window.offset == w.offset
  {
    if m == LeftToRight then PageNext(w, size) else PagePrevious(w)
  }

  /** In a canonical window `pageLeft` moves exactly when there is a left page,
      lands on it, and leaves the window canonical; likewise `pageRight`. */
  lemma PageTowardsExistingSide(w: Window, m: Mode, size: int)
    requires Canonical(w, size)
    ensures Canonical(PageLeft(w, m, size).window, size) && Canonical(PageRight(w, m, size).window, size)
    ensures PageLeft(w, m, size).window.index != w.index <==> LeftPage(w, m).Holds?
    ensures PageRight(w, m, size).window.index != w.index <==> RightPage(w, m).Holds?
    ensures LeftPage(w, m).Holds? ==> PageLeft(w, m, size).window.current == Holds(LeftPage(w, m).page)
    ensures RightPage(w, m).Holds? ==> PageRight(w, m, size).window.current == Holds(RightPage(w, m).page)
  {
    ShiftKeepsCanonical(w, size);
  }

  /** The two modes mirror each other: right to left, the left slot and the
      "page left" command are what the right slot and "page right" are left to
      right, and vice versa. */
  lemma ModesMirror(w: Window, size: int)
    ensures LeftPage(w, RightToLeft) == RightPage(w, LeftToRight)
    ensures RightPage(w, RightToLeft) == LeftPage(w, LeftToRight)
    ensures PageLeft(w, RightToLeft, size) == PageRight(w, LeftToRight, size)
    ensures PageRight(w, RightToLeft, size) == PageLeft(w, LeftToRight, size)
  {
  }
}

=== FILE: offset_engine.dfy ===
/** The offset engine, `scrollBetweenPages`: turns a horizontal pixel delta
    into a change of the offset between the current page and its neighbours,
    shifting the window when a neighbour becomes fully shown, and hands back
    the part of the delta it did not consume. */
module OffsetEngine {
  import opened PagerState
  import opened PageWindow
  import opened ModePolicy

  /** How far the offset may grow before the left page is fully shown: one
      page span when there is a left page, nothing otherwise. */
  function LeftLimit(w: Window, m: Mode, g: Geometry): int {
    if LeftPage(w, m).Empty? then 0 else Span(g)
  }

  /** How far the offset may fall before the right page is fully shown. */
  function RightLimit(w: Window, m: Mode, g: Geometry): int {
    if RightPage(w, m).Empty? then 0 else -Span(g)
  }

  /** The limit in the direction of a delta: a negative delta reveals the left page. */
  function Limit(w: Window, m: Mode, g: Geometry, dx: int): int {
    if dx < 0 then LeftLimit(w, m, g) else RightLimit(w, m, g)
  }

  /** The neighbour a delta moves towards. */
  function Toward(w: Window, m: Mode, dx: int): Slot {
    if dx < 0 then LeftPage(w, m) else RightPage(w, m)
  }

  /** The window shift a delta leads to once its limit is reached. */
  function Turn(w: Window, m: Mode, size: int, dx: int): Shift {
    if dx < 0 then PageLeft(w, m, size) else PageRight(w, m, size)
  }

  /** The offset range `onFill` clamps to: no room towards a missing
      neighbour, and one pixel short of a full page span towards a present one. */
  function MinOffset(w: Window, m: Mode, g: Geometry): int {
    if RightPage(w, m).Empty? then 0 else -g.width - g.interval + 1
  }

  function MaxOffset(w: Window, m: Mode, g: Geometry): int {
    if LeftPage(w, m).Empty? then 0 else g.width + g.interval - 1
  }

  predicate InBounds(w: Window, m: Mode, g: Geometry) {
    MinOffset(w, m, g) <= w.offset <= MaxOffset(w, m, g)
  }

  /** `remain` has the sign of `dx` (or is 0) and is no larger. */
  predicate Within(remain: int, dx: int) {
    if dx < 0 then dx <= remain <= 0
    else if dx > 0 then 0 <= remain <= dx
    else remain == 0
  }

  /** The index counted along the screen from left to right. */
  function Column(w: Window, m: Mode): int {
    if m == LeftToRight then w.index else -w.index
  }

  /** Where the viewport sits along the strip of pages laid out on screen, in
      pixels: each column is one span further right, and a positive offset
      moves the page right, that is the viewport left. */
  function Position(w: Window, m: Mode, g: Geometry): int {
    Column(w, m) * Span(g) - w.offset
  }

  datatype Scroll = Scroll(window: Window, remain: int, effects: seq<Effect>)

  /** `scrollBetweenPages`. A delta is absorbed into the offset, leaving no
      remainder, exactly when the new offset stays strictly short of the limit
      in its direction. Otherwise the offset returns to 0, the window shifts
      towards the neighbour if there is one, and the remainder is what the delta
      had left beyond the limit. */
  function ScrollBetweenPages(w: Window, m: Mode, g: Geometry, size: int, dx: int): (r: Scroll)
    ensures var absorbed := if dx < 0 then w.offset - dx < Limit(w, m, g, dx) else w.offset - dx > Limit(w, m, g, dx);
      && (absorbed ==> r == Scroll(w.(offset := w.offset - dx), 0, []))
      && (!absorbed ==> r.window.offset == 0 && r.remain == dx + Limit(w, m, g, dx) - w.offset)
      && (!absorbed && Toward(w, m, dx).Empty? ==> r.window == w.(offset := 0) && r.effects == [])
      && (!absorbed && Toward(w, m, dx).Holds? ==>
            r.window == Turn(w, m, size, dx).window.(offset := 0) && r.effects == Turn(w, m, size, dx).effects)
  {
    var left := LeftPage(w, m);
    var right := RightPage(w, m);
    if dx < 0 then
      var limit := if left.Empty? then 0 else g.width + g.interval;
      if dx > w.offset - limit then
        Scroll(w.(offset := w.offset - dx), 0, [])
      else
        var s := if left.Holds? then PageLeft(w, m, size) else Shift(w, []);
        Scroll(s.window.(offset := 0), dx + limit - w.offset, s.effects)
    else
      var limit := if right.Empty? then 0 else -g.width - g.interval;
      if dx < w.offset - limit then
        Scroll(w.(offset := w.offset - dx), 0, [])
      else
        var s := if right.Holds? then PageRight(w, m, size) else Shift(w, []);
        Scroll(s.window.(offset := 0), dx + limit - w.offset, s.effects)
  }

  /** Starting inside the clamp range, the offset stays inside it (measured
      against the window after the call); and whenever a remainder is handed
      back, the offset is at rest, inside the range, wherever it started. */
  lemma ScrollKeepsBounds(w: Window, m: Mode, g: Geometry, size: int, dx: int)
    requires ValidGeometry(g)
    ensures InBounds(w, m, g) ==> InBounds(ScrollBetweenPages(w, m, g, size, dx).window, m, g)
    ensures ScrollBetweenPages(w, m, g, size, dx).remain != 0 ==>
      InBounds(ScrollBetweenPages(w, m, g, size, dx).window, m, g)
  {
  }

  /** Starting inside the clamp range, the remainder has the sign of the delta
      and is no larger; it is the whole delta exactly when the offset is at rest
      and there is no neighbour to move towards, and strictly smaller whenever
      that neighbour exists. */
  lemma ScrollRemainder(w: Window, m: Mode, g: Geometry, size: int, dx: int)
    requires ValidGeometry(g) && InBounds(w, m, g)
    ensures Within(ScrollBetweenPages(w, m, g, size, dx).remain, dx)
    ensures dx != 0 ==>
      (ScrollBetweenPages(w, m, g, size, dx).remain == dx <==> w.offset == 0 && Toward(w, m, dx).Empty?)
    ensures dx != 0 && Toward(w, m, dx).Holds? ==> Abs(ScrollBetweenPages(w, m, g, size, dx).remain) < Abs(dx)
  {
  }

  /** A step of the viewport: the column change times a span, less the offset change. */
  lemma PositionStep(w: Window, v: Window, m: Mode, g: Geometry, d: int)
    requires d == Column(v, m) - Column(w, m) && -1 <= d <= 1
    ensures Position(v, m, g) - Position(w, m, g) == d * Span(g) - v.offset + w.offset
  {
    var c := Column(w, m);
    var s := Span(g);
    assert Column(v, m) == c + d;
    assert (c + d) * s == c * s + d * s;
  }

  /** Conservation when a negative delta shifts the window to the left page. */
  lemma ConserveShiftLeft(w: Window, m: Mode, g: Geometry, size: int, dx: int)
    requires Canonical(w, size) && dx < 0 && LeftPage(w, m).Holds? && w.offset - dx >= Span(g)
    ensures var r := ScrollBetweenPages(w, m, g, size, dx);
      && Canonical(r.window, size)
      && Position(r.window, m, g) + r.remain == Position(w, m, g) + dx
  {
    var r := ScrollBetweenPages(w, m, g, size, dx);
    var t := PageLeft(w, m, size);
    PageTowardsExistingSide(w, m, size);
    assert r.window == t.window.(offset := 0);
    assert r.remain == dx + Span(g) - w.offset;
    assert Column(r.window, m) == Column(w, m) - 1;
    PositionStep(w, r.window, m, g, -1);
  }

  /** Conservation when a non-negative delta shifts the window to the right page. */
  lemma ConserveShiftRight(w: Window, m: Mode, g: Geometry, size: int, dx: int)
    requires Canonical(w, size) && dx >= 0 && RightPage(w, m).Holds? && w.offset - dx <= -Span(g)
    ensures var r := ScrollBetweenPages(w, m, g, size, dx);
      && Canonical(r.window, size)
      && Position(r.window, m, g) + r.remain == Position(w, m, g) + dx
  {
    var r := ScrollBetweenPages(w, m, g, size, dx);
    var t := PageRight(w, m, size);
    PageTowardsExistingSide(w, m, size);
    assert r.window == t.window.(offset := 0);
    assert r.remain == dx - Span(g) - w.offset;
    assert Column(r.window, m) == Column(w, m) + 1;
    PositionStep(w, r.window, m, g, 1);
  }

  /** Conservation: in a canonical window the viewport moves by exactly the
      consumed part of the delta (a page shift counting as one span), and the
      window stays canonical. */
  lemma ScrollConservesPosition(w: Window, m: Mode, g: Geometry, size: int, dx: int)
    requires Canonical(w, size)
    ensures var r := ScrollBetweenPages(w, m, g, size, dx);
      && Canonical(r.window, size)
      && Position(r.window, m, g) + r.remain == Position(w, m, g) + dx
  {
    var r := ScrollBetweenPages(w, m, g, size, dx);
    var absorbed := if dx < 0 then w.offset - dx < Limit(w, m, g, dx) else w.offset - dx > Limit(w, m, g, dx);
    if absorbed || Toward(w, m, dx).Empty? {
      PositionStep(w, r.window, m, g, 0);
    } else if dx < 0 {
      ConserveShiftLeft(w, m, g, size, dx);
    } else {
      ConserveShiftRight(w, m, g, size, dx);
    }
  }
}

=== FILE: page_window.dfy ===
/** The three-slot page window: shifting it by one page (`pagePrevious`,
    `pageNext`) and dropping views (`removeAllPages`, `removeProgress`,
    `removeErrorView`). */
module PageWindow {
  import opened PagerState

  /** `removePage` on a slot: release the view when the field holds one. */
  function Drop(s: Slot): seq<Effect> {
    if s.Holds? then [Release(s.page)] else []
  }

  /** Binding a view to the page a slot names: `obtainPage`, `bind`, `addComponent`. */
  function Bind(s: Slot): seq<Effect> {
    if s.Holds? then [Obtain(s.page)] else []
  }

  lemma DropAccounting(s: Slot)
    ensures Released(Drop(s)) == SlotPages(s) && Obtained(Drop(s)) == multiset{}
  {
  }

  lemma SlotEffects(s: Slot, t: Slot)
    ensures Released(Drop(s) + Bind(t)) == SlotPages(s)
    ensures Obtained(Drop(s) + Bind(t)) == SlotPages(t)
  {
    AccountingConcat(Drop(s), Bind(t));
  }

  /** `removeAllPages`: release every held view and empty the three slots. */
  function RemoveAllPages(w: Window): (r: Shift)
    ensures r.window == w.(previous := Empty, current := Empty, next := Empty)
    ensures Released(r.effects) == Held(w) && Obtained(r.effects) == multiset{}
  {
    var a, b, c := Drop(w.previous), Drop(w.current), Drop(w.next);
    var es := a + b + c;
    DropAccounting(w.previous);
    DropAccounting(w.current);
    DropAccounting(w.next);
    AccountingConcat(a, b);
    AccountingConcat(a + b, c);
    Shift(w.(previous := Empty, current := Empty, next := Empty), es)
  }

  /** `removeAllPages` calls nothing on the host but releases. */
  lemma RemoveAllPagesOnlyReleases(w: Window)
    ensures forall e | e in RemoveAllPages(w).effects :: e.Release?
  {
    var a, b, c := Drop(w.previous), Drop(w.current), Drop(w.next);
    assert RemoveAllPages(w).effects == a + b + c;
    assert forall e | e in a :: e.Release?;
    assert forall e | e in b :: e.Release?;
    assert forall e | e in c :: e.Release?;
  }

  /** `removeProgress`: hide the loading placeholder if it is shown. */
  function RemoveProgress(p: Pager): (r: Step)
    ensures !r.pager.views.progress && r.pager == p.(views := p.views.(progress := false))
    ensures r.effects == (if p.views.progress then [HideProgress] else [])
  {
    if p.views.progress then Step(p.(views := p.views.(progress := false)), [HideProgress]) else Step(p, [])
  }

  /** `removeErrorView`: hide the error placeholder and forget its text. */
  function RemoveErrorView(p: Pager): (r: Step)
    ensures !r.pager.views.errorView && r.pager == p.(views := r.pager.views)
    ensures r.pager.views.progress == p.views.progress
    ensures p.views.errorView ==> r.pager.views.errorStr == None && r.effects == [HideError]
    ensures !p.views.errorView ==> r == Step(p, [])
  {
    if p.views.errorView then Step(p.(views := p.views.(errorView := false, errorStr := None)), [HideError])
    else Step(p, [])
  }

  /** `pagePrevious`: at the first page nothing happens; otherwise the index
      drops by one, the next view is released, next <- current <- previous, and
      a view for the page before the new index is bound when there is one. The
      only view released is the old next one and the only view bound is the new
      previous one; the offset is untouched. */
  function PagePrevious(w: Window): (r: Shift)
    ensures w.index <= 0 ==> r == Shift(w, [])
    ensures w.index > 0 ==>
      && r.window.index == w.index - 1
      && r.window.next == w.current
      && r.window.current == w.previous
      && r.window.previous == (if w.index - 1 > 0 then Holds(w.index - 2) else Empty)
    ensures r.window.offset == w.offset
  {
    if w.index <= 0 then Shift(w, [])
    else
      var i := w.index - 1;
      var added := if i > 0 then Holds(i - 1) else Empty;
      Shift(w.(index := i, next := w.current, current := w.previous, previous := added),
            Drop(w.next) + Bind(added))
  }

  /** `pageNext`: at the last page (as the adapter's current `size` tells)
      nothing happens; otherwise the mirror image of `PagePrevious`. */
  function PageNext(w: Window, size: int): (r: Shift)
    ensures w.index >= size - 1 ==> r == Shift(w, [])
    ensures w.index < size - 1 ==>
      && r.window.index == w.index + 1
      && r.window.previous == w.current
      && r.window.current == w.next
      && r.window.next == (if w.index + 1 < size - 1 then Holds(w.index + 2) else Empty)
    ensures r.window.offset == w.offset
  {
    if w.index >= size - 1 then Shift(w, [])
    else
      var i := w.index + 1;
      var added := if i < size - 1 then Holds(i + 1) else Empty;
      Shift(w.(index := i, previous := w.current, current := w.next, next := added),
            Drop(w.previous) + Bind(added))
  }

  /** The views a shift releases and binds: the slot falling off the far side,
      and the slot newly revealed on the near side. */
  lemma ShiftEffects(w: Window, size: int)
    ensures w.index > 0 ==>
      && Released(PagePrevious(w).effects) == SlotPages(w.next)
      && Obtained(PagePrevious(w).effects) == SlotPages(PagePrevious(w).window.previous)
    ensures w.index < size - 1 ==>
      && Released(PageNext(w, size).effects) == SlotPages(w.previous)
      && Obtained(PageNext(w, size).effects) == SlotPages(PageNext(w, size).window.next)
  {
    if w.index > 0 {
      SlotEffects(w.next, PagePrevious(w).window.previous);
    }
    if w.index < size - 1 {
      SlotEffects(w.previous, PageNext(w, size).window.next);
    }
  }

  /** Shifting the window never leaks or invents a view: what the slots hold
      afterwards is what they held, plus the view bound, minus the view released. */
  lemma WindowShiftAccounting(w: Window, size: int)
    ensures Accounted(w, PagePrevious(w))
    ensures Accounted(w, PageNext(w, size))
  {
    ShiftEffects(w, size);
  }

  /** A canonical window stays canonical under both shifts, and a shift moves
      the index exactly when the neighbouring page exists. */
  lemma ShiftKeepsCanonical(w: Window, size: int)
    requires Canonical(w, size)
    ensures Canonical(PagePrevious(w).window, size) && Canonical(PageNext(w, size).window, size)
    ensures PagePrevious(w).window.index == (if w.previous.Holds? then w.index - 1 else w.index)
    ensures PageNext(w, size).window.index == (if w.next.Holds? then w.index + 1 else w.index)
  {
  }

  /** From a canonical window that is not at the last page, `pageNext` then
      `pagePrevious` restores the index, the offset and every slot; the views
      released along the way are exactly the views bound along the way. */
  lemma NextThenPrevious(w: Window, size: int)
    requires Canonical(w, size) && w.index < size - 1
    ensures var n := PageNext(w, size);
            var b := PagePrevious(n.window);
            && b.window == w
            && Released(n.effects) + Released(b.effects) == Obtained(n.effects) + Obtained(b.effects)
  {
    var n := PageNext(w, size);
    var b := PagePrevious(n.window);
    assert n.window.index == w.index + 1 > 0;
    assert b.window.previous == w.previous;
    assert b.window == w;
    ShiftEffects(w, size);
    ShiftEffects(n.window, size);
  }

  /** The mirror round trip: from a canonical window that is not at the first
      page, `pagePrevious` then `pageNext` restores the window. */
  lemma PreviousThenNext(w: Window, size: int)
    requires Canonical(w, size) && w.index > 0
    ensures var b := PagePrevious(w);
            var n := PageNext(b.window, size);
            && n.window == w
            && Released(b.effects) + Released(n.effects) == Obtained(b.effects) + Obtained(n.effects)
  {
    var b := PagePrevious(w);
    var n := PageNext(b.window, size);
    assert b.window.index == w.index - 1 < size - 1;
    assert n.window.next == w.next;
    assert n.window == w;
    ShiftEffects(w, size);
    ShiftEffects(b.window, size);
  }
}

=== FILE: pager_state.dfy ===
/** The state record of the pager layout manager: the current page index, the
    pixel offset between pages, the reading mode, the three page slots and the
    bookkeeping flags of gestures and animations.

    A page view is modelled by the page index it was bound to. Everything the
    layout manager asks of its rendering host (obtain, bind and add a page view;
    remove, unbind and release it; show a placeholder; request a fill; pull an
    edge effect) is recorded as an `Effect` in the log each step returns. */
module PagerState {

  datatype Option<+T> = None | Some(value: T)

  /** Reading direction: left to right, or right to left (the default). */
  datatype Mode = LeftToRight | RightToLeft

  /** A page slot: `Empty` is a null field, `Holds(k)` a field holding a page
      view that was bound to page `k`. */
  datatype Slot = Empty | Holds(page: int)

  datatype Side = LeftEdge | RightEdge

  /** The calls the layout manager makes on its host. */
  datatype Effect =
    | Obtain(page: int)                    // obtain a page view, bind it to `page`, add it
    | Release(page: int)                   // remove, unbind and release the view bound to `page`
    | ShowProgress
    | HideProgress
    | ShowError
    | HideError
    | BindError(text: string)
    | RequestFill
    | EdgeBounce(side: Side)               // pull an edge glow and release it at once
    | EdgeRelease                          // release every edge glow
    | Overscroll(deltaX: int, deltaY: int) // edge pull driven by the accumulated deltas

  /** Which of the three animations (smooth scroll, page fling, smooth scale) runs. */
  datatype Animations = Animations(scroller: bool, fling: bool, scaler: bool)

  /** The smooth scroller's distance and the last sample it applied. */
  datatype Scroller = Scroller(dx: int, dy: int, lastX: int, lastY: int)

  /** The view width and the gap drawn between two pages, in pixels. */
  datatype Geometry = Geometry(width: int, interval: int)

  /** A laid-out view has a non-negative width; the gap is a positive dp amount. */
  predicate ValidGeometry(g: Geometry) {
    g.width >= 0 && g.interval > 0
  }

  /** The distance between the left edges of two adjacent pages. */
  function Span(g: Geometry): int {
    g.width + g.interval
  }

  /** `Integer.MAX_VALUE`, the size assumed while the adapter cannot tell one. */
  const IntMax: int := 0x7fff_ffff

  /** The adapter's size sentinels: still loading, and failed. */
  const StateWait: int := -1
  const StateError: int := -2

  /** The page window: the current index, the pixel offset of the current
      page from its resting place, and the three slots. */
  datatype Window = Window(index: int, offset: int, previous: Slot, current: Slot, next: Slot)

  /** The two placeholders: the progress view, the error view and the text
      bound to the error view. */
  datatype Views = Views(progress: bool, errorView: bool, errorStr: Option<string>)

  /** Gesture bookkeeping: the over-scroll deltas accumulated at an edge,
      whether the current scroll may move between pages, and whether the last
      touch-down stopped an animation. */
  datatype Gesture = Gesture(deltaX: int, deltaY: int, canScrollBetweenPages: bool, stopAnimationFinger: bool)

  /** The gesture state `resetParameters` restores. */
  const AtRest: Gesture := Gesture(0, 0, false, false)

  /** The whole layout manager state. */
  datatype Pager = Pager(
    window: Window,
    mode: Mode,
    views: Views,
    gesture: Gesture,
    anims: Animations,
    scroller: Scroller)

  /** A window transition together with the host calls it made, in order. */
  datatype Shift = Shift(window: Window, effects: seq<Effect>)

  /** A layout manager transition together with the host calls it made. */
  datatype Step = Step(pager: Pager, effects: seq<Effect>)

  /** `resetParameters`: offset, gesture deltas and gesture flags back to rest. */
  function ResetParameters(p: Pager): (r: Pager)
    ensures r.window.offset == 0 && r.gesture == AtRest
    ensures r.window.(offset := p.window.offset) == p.window
    ensures r.(window := p.window, gesture := p.gesture) == p
  {
    p.(window := p.window.(offset := 0), gesture := AtRest)
  }

  // ---------------------------------------------------------------------------
  // Page accounting: which page views the slots hold, which a step obtained and
  // which it released.

  function SlotPages(s: Slot): multiset<int> {
    if s.Holds? then multiset{s.page} else multiset{}
  }

  /** The pages held by the three slots, with multiplicity. */
  function Held(w: Window): multiset<int> {
    SlotPages(w.previous) + SlotPages(w.current) + SlotPages(w.next)
  }

  function Obtained(es: seq<Effect>): multiset<int> {
    if |es| == 0 then multiset{}
    else (if es[0].Obtain? then multiset{es[0].page} else multiset{}) + Obtained(es[1..])
  }

  function Released(es: seq<Effect>): multiset<int> {
    if |es| == 0 then multiset{}
    else (if es[0].Release? then multiset{es[0].page} else multiset{}) + Released(es[1..])
  }

  lemma {:induction false} AccountingConcat(a: seq<Effect>, b: seq<Effect>)
    ensures Obtained(a + b) == Obtained(a) + Obtained(b)
    ensures Released(a + b) == Released(a) + Released(b)
  {
    if |a| > 0 {
      assert (a + b)[1..] == a[1..] + b;
      AccountingConcat(a[1..], b);
    } else {
      assert a + b == b;
    }
  }

  lemma AccountingSum(a: seq<Effect>, b: seq<Effect>, c: seq<Effect>)
    ensures Obtained(a + b + c) == Obtained(a) + Obtained(b) + Obtained(c)
    ensures Released(a + b + c) == Released(a) + Released(b) + Released(c)
  {
    AccountingConcat(a, b);
    AccountingConcat(a + b, c);
  }

  /** A run of host calls that touches no page view. */
  predicate Quiet(es: seq<Effect>) {
    forall i | 0 <= i < |es| :: !es[i].Obtain? && !es[i].Release?
  }

  lemma {:induction false} QuietAccounting(es: seq<Effect>)
    requires Quiet(es)
    ensures Obtained(es) == multiset{} && Released(es) == multiset{}
  {
    if |es| > 0 {
      assert Quiet(es[1..]) by {
        forall i | 0 <= i < |es[1..]| ensures !es[1..][i].Obtain? && !es[1..][i].Release? {
          assert es[1..][i] == es[i + 1];
        }
      }
      QuietAccounting(es[1..]);
    }
  }

  /** Every view obtained is either still held or was released: the slots after
      a step hold exactly what they held before, plus what the step obtained,
      minus what it released. */
  predicate Accounted(before: Window, s: Shift) {
    Held(s.window) + Released(s.effects) == Held(before) + Obtained(s.effects)
  }

  /** The slot a canonical window has for `page`: bound to it when it is a page
      of the gallery, empty otherwise. */
  function Expected(page: int, size: int): Slot {
    if 0 <= page < size then Holds(page) else Empty
  }

  /** The window around a valid index: current bound to the index, previous and
      next bound to its neighbours where they exist. */
  predicate Canonical(w: Window, size: int) {
    && 0 <= w.index < size
    && w.current == Holds(w.index)
    && w.previous == Expected(w.index - 1, size)
    && w.next == Expected(w.index + 1, size)
  }

  /** The semantics assumed for `MathUtils.clamp(x, lo, hi)`, a helper that is
      not part of this model: `lo` below the range, `hi` above it. They matter
      only when `lo <= hi`, which `ValidGeometry` guarantees for the offset clamp. */
  function Clamp(x: int, lo: int, hi: int): int {
    if x < lo then lo else if x > hi then hi else x
  }

  function Abs(x: int): nat {
    if x < 0 then -x else x
  }
}

=== FILE: smooth_scroller.dfy ===
/** The smooth scroller, the animation that settles the pager after a drag:
    each animation tick feeds the newly covered distance through the offset
    engine, re-feeding remainders until none is left or no progress is made. */
module SmoothScroll {
  import opened PagerState
  import opened ModePolicy
  import opened OffsetEngine

  /** `startSmoothScroll`: remember the distance, restart from sample 0 and
      mark the scroller running. The duration is left to the animation clock. */
  function StartSmoothScroll(p: Pager, dx: int, dy: int): (r: Pager)
    ensures r.scroller == Scroller(dx, dy, 0, 0) && r.anims.scroller
    ensures r.anims.fling == p.anims.fling && r.anims.scaler == p.anims.scaler
    ensures r.window == p.window && r.mode == p.mode
  {
    p.(scroller := Scroller(dx, dy, 0, 0), anims := p.anims.(scroller := true))
  }

  /** `SmoothScroller.onCalculate` for one tick whose interpolated samples are
      `x` and `y`. The new horizontal distance `x - lastX` is fed through
      `scrollBetweenPages` again and again; every call that makes progress
      requests a fill, and a call that hands back its input unchanged ends the
      loop. `rest` is the part of the distance left unconsumed.

      Starting inside the clamp range, the offset stays inside it, the rest
      has the sign of the distance and is no larger, and a non-zero rest means
      the pager stands at rest against an edge with no page towards it. In a
      canonical window the viewport moves by exactly the consumed distance. */
  method OnCalculate(p: Pager, g: Geometry, size: int, x: int, y: int)
    returns (q: Pager, rest: int, effects: seq<Effect>)
    requires ValidGeometry(g)
    ensures q == p.(window := q.window, scroller := p.scroller.(lastX := x, lastY := y))
    ensures var w, v, d := p.window, q.window, x - p.scroller.lastX;
      && (InBounds(w, p.mode, g) ==> InBounds(v, p.mode, g) && Within(rest, d))
      && (InBounds(w, p.mode, g) && rest != 0 ==> v.offset == 0 && Toward(v, p.mode, rest).Empty?)
      && (InBounds(w, p.mode, g) && v.index != w.index ==> RequestFill in effects)
      && (Canonical(w, size) ==>
            Canonical(v, size) && Position(v, p.mode, g) + rest == Position(w, p.mode, g) + d)
  {
    var m := p.mode;
    var d := x - p.scroller.lastX;
    var offsetX := d;
    var cur := p.window;
    effects := [];
    while offsetX != 0
      invariant InBounds(p.window, m, g) ==> InBounds(cur, m, g) && Within(offsetX, d)
      invariant InBounds(p.window, m, g) && cur.index != p.window.index ==> RequestFill in effects
      invariant Canonical(p.window, size) ==>
        Canonical(cur, size) && Position(cur, m, g) + offsetX == Position(p.window, m, g) + d
      decreases if InBounds(cur, m, g) then 0 else 1, Abs(offsetX)
    {
      var before := offsetX;
      ScrollKeepsBounds(cur, m, g, size, before);
      if InBounds(cur, m, g) {
        ScrollRemainder(cur, m, g, size, before);
      }
      if Canonical(cur, size) {
        ScrollConservesPosition(cur, m, g, size, before);
      }
      var s := ScrollBetweenPages(cur, m, g, size, before);
      cur := s.window;
      offsetX := s.remain;
      effects := effects + s.effects;
      if offsetX == before {
        break;
      }
      effects := effects + [RequestFill];
    }
    q := p.(window := cur, scroller := p.scroller.(lastX := x, lastY := y));
    rest := offsetX;
  }
}
